=== FILE: README.md ===
# Veychi API core, modelled in Dafny

Veychi is a marketplace back end (Node.js, Express, Mongoose). Users open
one store each; an administrator approves stores; approved stores list
products and issue coupons; clients place orders whose subtotal sums the
discounted catalog prices and whose total applies the stores' coupons.
Records are never removed: they are soft-deleted through an `active` flag,
and disabling a store takes its products and coupons down with it.

This project models that core as pure functions over immutable sequences
of records:

- `Collection` gives the query semantics every route relies on: `findOne`
  is the first match, `find` the matches, `updateOne` rewrites the first
  match and reports whether it changed (the `nModified` count), and
  `updateMany` rewrites every match.
- `ProductModel`, `CouponModel`, `OrderModel`, `StoreModel`, `UserModel` and
  `CategoryModel` hold the documents, their schema defaults and bounds, the
  `fillable`/`updatable` field lists, `_.pick`, and the store-disable
  cascade hook together with the user-to-store lookups.
- `Functions` holds the pricing of `api/utils/functions.js`: `getSubtotal`
  and `applyCoupons`, each as a reference function plus a loop method proved
  equal to it.
- `Regex` holds the character-class patterns of `api/utils/regex.js`.
- One module per route file holds the handlers. Each handler is a function
  from the collections, the caller and the request to the new collections
  and an `Outcome`: `Ok`, or `Fail` with a `Reason` taken from the
  messages file.
- Modules suffixed `AsWritten` model eight source defects exactly as the
  code behaves (see Findings). The rest of the model uses the corrected
  behaviour.

Conventions:

- The caller's active store, which the stores middleware is meant to
  attach to the request, is an `Option<Store>` input (see Left out on the
  middleware as written).
- The current time is an `int` parameter `now`.
- Prices are `real`.
- Storage failures are explicit `Faults` flags.
- Where a validator runs before the handler's own checks, a body it
  rejects yields `ValidationFailed`.

## Model

| member | source | states |
|---|---|---|
| `ProductModel.Pick` | api/models/Product.model.js:6-16 | picking a field list drops every field outside it: `store`, `active` and `enabled` stay unset unless listed, and each listed field (name, description, short description, price, discount, images, tags, category, store) passes through unchanged |
| `ProductModel.New` | api/models/Product.model.js:42-75 | a new product takes the caller-given id, name, price and store, discount 0 when omitted, tags null when omitted, and is active and enabled |
| `ProductModel.Patch` | api/routes/products.route.js:164 | an update writes every field the body carries and leaves every absent field as it was; in particular it keeps the id, and keeps the owner and both flags unless the body sets them |
| `ProductModel.UpdatableKeepsOwnerAndFlags` | api/models/Product.model.js:12-16 | an update through the updatable list can change neither the owning store nor `active`/`enabled` |
| `ProductModel.PatchPreservesSchema` | api/models/Product.model.js:19-47 | a body passing the schema validators keeps a schema-valid product schema-valid (name length, price and discount bounds) |
| `CouponModel.Pick` | api/models/Coupon.model.js:7-15 | picking drops `store`, `enabled` and `active`, and passes value and percentage through |
| `CouponModel.New` | api/models/Coupon.model.js:35-58 | a new coupon is a percentage coupon unless the body says otherwise, enabled, active, never updated, and belongs to the given store |
| `CouponModel.Patch` | api/routes/coupons.route.js:134 | an update writes the body's name, expiration, value and percentage when present and leaves them otherwise; it keeps the id, and keeps the store and flags unless the body sets them |
| `CouponModel.PickedBodiesCarryNoStore` | api/models/Coupon.model.js:7-15 | neither the fillable nor the updatable list lets a client set the store, `enabled` or `active` |
| `OrderModel.ParseStatus` | api/models/Order.model.js:48-52 | only the four status names parse, each to the status that prints as that name |
| `OrderModel.ParseStatusName` | api/models/Order.model.js:6-8 | each status parses back from its name |
| `OrderModel.New` | api/models/Order.model.js:48-68 | a new order is PENDING, active and enabled, and keeps the given lines, coupons, amounts and user |
| `OrderModel.OnlyStatusUpdatable` | api/models/Order.model.js:10-14 | a client fills only products and coupons and updates only the status |
| `StoreModel.Pick` | api/models/Store.model.js:9-16 | picking drops the owner and both flags, and passes name and rut through |
| `StoreModel.New` | api/models/Store.model.js:50-65 | a new store awaits approval (`enabled` false), is active, and belongs to the given user |
| `StoreModel.Patch` | api/routes/stores.route.js:101 | an update writes the body's name, rut, activity, description and image URL when present and leaves them otherwise; it keeps the id, and keeps the owner and flags unless the body sets them |
| `StoreModel.UpdatableKeepsOwnerAndFlags` | api/models/Store.model.js:13-16 | an update through the updatable list keeps the owner, `enabled` and `active` |
| `StoreModel.DeactivateDependents` | api/models/Store.model.js:68-86 | exactly the store's products, then its coupons, become inactive, and nothing else changes; the coupon write is issued only after the product write succeeded; a failed write is reported as a storage error (the hook itself throws inside its callbacks, where no caller receives the error) |
| `StoreModel.OnUpdate` | api/models/Store.model.js:68-86 | the hook cascades only when the store is left not enabled, and changes nothing otherwise |
| `StoreModel.CascadeTouchesOnlyActiveOfThatStore` | api/models/Store.model.js:70-78 | the cascade writes only `active` (never `enabled`) and never touches another store's products or coupons |
| `StoreModel.CascadeIdempotent` | api/models/Store.model.js:70-84 | running the cascade twice leaves the same collections as running it once |
| `UserModel.ParseRole` | api/models/User.model.js:58-62 | only the two role names parse, each to the role that prints as that name |
| `UserModel.ParseRoleName` | api/models/User.model.js:9 | each role parses back from its name |
| `UserModel.ToJsonDropsOnlyPassword` | api/models/User.model.js:81-85 | two users serialize alike exactly when they differ at most in the password |
| `UserModel.New` | api/models/User.model.js:58-78 | a new user is a client and active |
| `UserModel.OnDisabled` | api/models/User.model.js:87-99 | a lookup error is reported; with no active store of the user nothing changes; otherwise the cascade runs on one active store of that user |
| `UserModel.OnEnabled` | api/models/User.model.js:101-113 | the same with the user's inactive store |
| `CategoryModel.New` | api/models/Category.model.js:16-28 | a new category keeps the given id, name and parent and is active |
| `CategoryModel.Patch` | api/routes/categories.route.js:120-128 | an update writes the body's name, parent and image URL when present and leaves them otherwise, keeps the id and the flag, and stamps `updatedAt` with the current time |
| `Functions.GetSubtotal` | api/utils/functions.js:1-9 | the loop computes the reference subtotal: the sum over the lines of price times (1 - discount/100) |
| `Functions.SubtotalAppend` | api/utils/functions.js:4-6 | one more line adds exactly its discounted price |
| `Functions.SubtotalConcat` | api/utils/functions.js:1-9 | the subtotal of two lists joined is the sum of their subtotals |
| `Functions.SubtotalRemove` | api/utils/functions.js:1-9 | taking one line out removes exactly its discounted price |
| `Functions.SubtotalPermutation` | api/utils/functions.js:1-9 | the subtotal does not depend on line order: any permutation gives the same value |
| `Functions.SchemaValidIsPriceable` | api/models/Product.model.js:36-47 | a schema-valid product has a non-negative price and a discount within 0..100 |
| `Functions.TermBounds` | api/utils/functions.js:5 | a line contributes between zero and its catalog price |
| `Functions.SubtotalBounds` | api/utils/functions.js:1-9 | with valid catalog data the subtotal lies between zero and the sum of the prices |
| `Functions.ApplyCoupon` | api/utils/functions.js:17-26 | one coupon's pass re-prices every line independently and keeps the list length |
| `Functions.ApplyAll` | api/utils/functions.js:14-28 | the coupons, in order, change only prices, and a line no coupon applies to keeps its price |
| `Functions.ApplyCoupons` | api/utils/functions.js:11-33 | with no coupons the given subtotal comes back unchanged; otherwise the total is the subtotal of the re-priced lines |
| `Functions.ApplyCouponsLoop` | api/utils/functions.js:11-33 | the nested loops compute the same total and re-priced lines as the reference |
| `Functions.FlatCouponFloors` | api/utils/functions.js:22-23 | a flat coupon subtracts its value and floors the price at zero |
| `Functions.CouponPriceBounds` | api/utils/functions.js:19-24 | a coupon within bounds never raises a price and never makes it negative |
| `Functions.ExpiredCouponIsInert` | api/utils/functions.js:15-16 | a coupon past its expiration re-prices nothing |
| `Functions.CouponsCompound` | api/utils/functions.js:14-20 | two percentage coupons on one line multiply (50% twice leaves a quarter) |
| `Functions.ApplyAllBounds` | api/utils/functions.js:14-28 | with coupons within bounds every re-priced line stays between zero and its original price |
| `Functions.SubtotalMonotone` | api/utils/functions.js:30 | lower prices with the same discounts give a lower or equal subtotal |
| `Functions.TotalWithinSubtotal` | api/utils/functions.js:11-33 | the order total lies between zero and the subtotal |
| `Functions.OtherStoresUntouched` | api/utils/functions.js:18 | a line whose store has no coupon in the list keeps its price |
| `Functions.ForeignCouponsKeepSubtotal` | api/utils/functions.js:17-30 | coupons of stores no line belongs to leave the total equal to the subtotal |
| `Functions.TwoStoreExample` | api/utils/functions.js:11-33 | a 20% coupon of store 1 on lines of 100 (store 1) and 50 (store 2) turns the subtotal 150 into the total 130 |
| `FunctionsAsWritten.ApplyAllAsWritten` | api/utils/functions.js:14-28 | the pass with the store test as written keeps the list length |
| `FunctionsAsWritten.AsWrittenCouponsNeverApply` | api/utils/functions.js:18 | as written no coupon ever re-prices a line, so the total always equals the subtotal |
| `FunctionsAsWritten.SameStoreCouponIgnored` | api/utils/functions.js:18 | a 20% coupon of the line's own store leaves 100 at 100 as written, against 80 when store ids are compared by value |
| `OrdersRoute.Create` | api/routes/orders.route.js:42-86 | no lines gives ORDERS_EMPTY; amounts outside the schema bounds are refused, and only then; otherwise one PENDING order of the caller is appended, with the lines' ids, the subtotal of the lines and the coupon-applied total (the subtotal when no coupon is sent), so any order with lines and valid amounts is created |
| `OrdersRoute.CreateIgnoresUnfillable` | api/routes/orders.route.js:43 | the request's user, amounts, status and flags have no effect on the created order |
| `OrdersRoute.CreatedTotalWithinSubtotal` | api/routes/orders.route.js:57-75 | with valid catalog data and coupons a created order's total lies between zero and its subtotal |
| `OrdersRoute.UpdateStatus` | api/routes/orders.route.js:104-115 | an unknown status is refused; the call succeeds exactly when the caller's first live order with that id has a different status, and then only that status changes |
| `OrdersRoute.CompleteCanReturnToPending` | api/routes/orders.route.js:96-106 | nothing orders the statuses: a COMPLETE order can be set back to PENDING |
| `OrdersRoute.Retire` | api/routes/orders.route.js:132-134 | a deleted order becomes inactive, and FAILED unless it was COMPLETE, with nothing else changed |
| `OrdersRoute.Delete` | api/routes/orders.route.js:126-143 | a missing or foreign order gives ORDER_NOT_FOUND and no change; otherwise exactly the caller's first live order with that id is retired |
| `OrdersRoute.DeleteTwiceIsReportedNoOp` | api/routes/orders.route.js:126-139 | with distinct ids a second delete of the same order reports not-found and changes nothing |
| `OrdersRouteAsWritten.CreateAsWritten` | api/routes/orders.route.js:57-75 | as written, an order with lines but no coupons always fails with the exception, and an order that is created carries total 0 whatever its coupons give |
| `OrdersRouteAsWritten.OrderWithoutCouponsRefused` | api/routes/orders.route.js:59-61 | an order without coupons and with valid amounts is refused as written and created by the corrected route |
| `OrdersRouteAsWritten.CouponOrderTotalLost` | api/routes/orders.route.js:69-75 | an order with coupons whose discounted total is not zero is stored with total 0 as written and with that total by the corrected route |
| `CouponsRoute.Clamp` | api/routes/coupons.route.js:79 | a percentage coupon's value above 100 becomes exactly 100, any other value is left alone, and the value never grows |
| `CouponsRoute.ClampIdempotent` | api/routes/coupons.route.js:125 | clamping twice is clamping once |
| `CouponsRoute.Create` | api/routes/coupons.route.js:69-91 | without a store or with an invalid body it is refused; a name live in the caller's store is refused, and exactly then; otherwise the coupon is created, belonging to the caller's store, with the body's name and expiration, the body's kind (percentage by default) and the body's value clamped on that kind |
| `CouponsRoute.CreateClampsOmittedPercentage` | api/routes/coupons.route.js:79 | the corrected clamp: a create body with value 150 and no `percentage` gives a percentage coupon of value 100 |
| `CouponsRoute.Rewrite` | api/routes/coupons.route.js:123-134 | the corrected update clamp: an update writes the body's name, expiration and kind when present, keeps id, store and flags, stamps `updatedAt`, and stores the body's value (or the current one) clamped on the resulting kind, so a percentage coupon stays at 100 or below whether or not the body sends `percentage` |
| `CouponsRoute.Update` | api/routes/coupons.route.js:102-143 | without a store it is refused; a body the route validators reject (a given name outside 3..128 characters, or an expiration sent without a value within [0, maxPrice]) is refused before any lookup; a name live in the caller's store is refused, the coupon's own included; a value the update validators reject whatever coupon is reached (negative, or above maxPrice on a body declaring a flat coupon) is refused whether or not the coupon exists; otherwise a missing or foreign coupon, a rewritten value out of bounds or an unchanged coupon fails with no change, and in every other case exactly that coupon is replaced by its rewrite and the call succeeds |
| `CouponsRoute.NegativeValueRefusedWithoutMatch` | api/routes/coupons.route.js:134 | a negative value is refused by the update validators even when no coupon has the id |
| `CouponsRoute.Delete` | api/routes/coupons.route.js:155-175 | a missing or foreign coupon gives COUPON_NOT_FOUND and no change; otherwise exactly that coupon becomes inactive |
| `CouponsRoute.DeleteTwiceIsReportedNoOp` | api/routes/coupons.route.js:162-171 | with distinct ids a second delete reports not-found and changes nothing |
| `CouponsRouteAsWritten.OmittedPercentageEscapesClamp` | api/routes/coupons.route.js:79 | as written, a body with value 150 and no `percentage` stores a 150% coupon, which takes a price of 10 to -5 |
| `CouponsRouteAsWritten.UpdateWithoutPercentageEscapesClamp` | api/routes/coupons.route.js:125 | as written, updating a percentage coupon with value 150 and no `percentage` keeps a 150% coupon, where the corrected `CouponsRoute.Rewrite` stores 100 |
| `ProductsRoute.Guard` | api/routes/products.route.js:84-88 | a store-owning call passes exactly when the caller has a store and it is approved |
| `ProductsRoute.List` | api/routes/products.route.js:17 | the listing holds exactly the active and enabled products |
| `ProductsRoute.Lookup` | api/routes/products.route.js:37-41 | a lookup finds a product with that id only if it is active and enabled, and finds nothing exactly when there is none |
| `ProductsRoute.Create` | api/routes/products.route.js:84-105 | the store, validation and approval checks come in that order; a name live in the caller's store is refused, and exactly then; otherwise a valid body from an approved store is created, belonging to the caller's store whatever the body names, with discount 0 by default, and schema-valid |
| `ProductsRoute.Update` | api/routes/products.route.js:116-167 | the store, validation (the product-name pattern, price and discount bounds) and approval checks come in that order; a name live in the caller's store is refused; a schema-invalid patch is refused; otherwise a missing or unchanged product fails with no change and in every other case exactly the caller's live product with that id becomes its patch by the updatable fields, keeping its store and flags |
| `ProductsRoute.Delete` | api/routes/products.route.js:185-203 | a missing or foreign product gives PRODUCT_NOT_FOUND and no change; otherwise exactly that product becomes inactive |
| `ProductsRoute.DeletedProductHidden` | api/routes/products.route.js:190-201 | with distinct ids a deleted product is no longer found by a lookup |
| `TagsRoute.IndexOf` | api/routes/tags.route.js:24 | the first position of the tag, with no earlier occurrence; where JavaScript's `indexOf` answers -1 for an absent tag the model answers the length, a case the filter never reaches since it only asks for tags that occur |
| `TagsRoute.FirstSeenProperties` | api/routes/tags.route.js:24 | the first-appearance reference list holds exactly the input's tags, each once |
| `TagsRoute.IndexOfIsFirst` | api/routes/tags.route.js:24 | the filter keeps a position exactly when its tag does not occur earlier |
| `TagsRoute.KeepIsFirstSeen` | api/routes/tags.route.js:24 | filtering any prefix gives that prefix's first-appearance list |
| `TagsRoute.DedupIsFirstSeen` | api/routes/tags.route.js:24 | the `indexOf` filter equals the first-appearance list, holds no duplicates and loses no tag |
| `TagsRoute.FirstSeenOrder` | api/routes/tags.route.js:24 | the kept tags appear in the order of their first occurrence |
| `TagsRoute.IndexOfPrefix` | api/routes/tags.route.js:24 | appending a tag leaves the first position of every earlier tag unchanged |
| `TagsRoute.FlattenContents` | api/routes/tags.route.js:18-22 | the pushed list holds exactly the tags of the considered products |
| `TagsRoute.Tags` | api/routes/tags.route.js:11-26 | the route succeeds with the tags of the active products, each once, in order of first appearance |
| `TagsRoute.PushAll` | api/routes/tags.route.js:16-22 | the nested `forEach` loops push every tag of every product in order |
| `TagsRoute.KeepFirst` | api/routes/tags.route.js:24 | the filter loop computes the reference de-duplication |
| `TagsRoute.CollectTags` | api/routes/tags.route.js:11-26 | the loops compute the route's tag list |
| `TagsRouteAsWritten.FlattenAsWritten` | api/routes/tags.route.js:19 | as written the push succeeds exactly when every product has a tags array |
| `TagsRouteAsWritten.UntaggedProductFailsRoute` | api/routes/tags.route.js:19 | one active product created without tags makes the route fail as written, while the corrected route answers with no tags |
| `CategoriesRoute.List` | api/routes/categories.route.js:18 | the listing holds exactly the active categories |
| `CategoriesRoute.Subcategories` | api/routes/categories.route.js:37 | the listing holds exactly the active categories whose parent is the id |
| `CategoriesRoute.ProductsOf` | api/routes/categories.route.js:56 | the listing holds exactly the active, enabled products of the category |
| `CategoriesRoute.Create` | api/routes/categories.route.js:79-96 | an invalid body is refused; a name held by any active category is refused, and exactly then; otherwise the new category is appended |
| `CategoriesRoute.Update` | api/routes/categories.route.js:105-131 | a given name outside 3..128 characters is refused first; the name is refused only when two or more active categories hold it; otherwise the first active category with that id is patched, and an unchanged or missing one gives CATEGORY_NOT_FOUND |
| `CategoriesRoute.RenameToSingleHolderAllowed` | api/routes/categories.route.js:123-126 | a name within bounds held by exactly one other active category is accepted |
| `CategoriesRoute.Delete` | api/routes/categories.route.js:152-167 | a missing or inactive category gives CATEGORY_NOT_FOUND and no change; otherwise the category and exactly its active direct children become inactive |
| `CategoriesRoute.GrandchildrenUntouched` | api/routes/categories.route.js:160 | the cascade is one level deep: any category neither deleted nor a direct child keeps its record |
| `CategoriesRoute.DeleteLeavesNothingActive` | api/routes/categories.route.js:157-161 | after a delete that found the category, no direct child is active, and with distinct ids the category itself is inactive |
| `CategoriesRouteAsWritten.SecondChildSurvives` | api/routes/categories.route.js:160 | with two active children, the single-document update as written leaves the second child active, while the corrected delete deactivates it |
| `StoresRoute.Create` | api/routes/stores.route.js:43-61 | a caller with a store is refused first; any store, active or not, with the same name or rut is refused, and exactly then; a caller without a store sending a valid, unclashing body gets the store, which belongs to the caller and awaits approval |
| `StoresRoute.Update` | api/routes/stores.route.js:87-109 | a caller without a store or an invalid body is refused; any active store holding the requested name or rut is refused; otherwise a missing or unchanged store fails, and in every other case the caller's store becomes its patch by the updatable fields, keeping its owner and flags |
| `StoresRoute.OwnNameIsAClash` | api/routes/stores.route.js:96-99 | sending back the store's own name is refused, since the check does not exclude the caller's store |
| `StoresRoute.Delete` | api/routes/stores.route.js:115-131 | the corrected delete: without a store, or with no active store, nothing changes; otherwise the store becomes inactive first and then its products and coupons are cascaded, with the cascade's outcome reported |
| `StoresRoute.CascadeErrorKeepsStoreRetired` | api/routes/stores.route.js:125-136 | a failed cascade write is reported, but the store's `active=false` stays committed |
| `StoresRoute.DeleteTwiceReportsNotFound` | api/routes/stores.route.js:121-123 | with distinct ids a second delete reports not-found and changes nothing |
| `StoresRouteAsWritten.DeleteAsWritten` | api/routes/stores.route.js:115-137 | as written, and given the caller's store as the middleware is meant to supply it, a delete never succeeds and never touches products or coupons; when the caller's store is active it is still retired and the answer is the exception |
| `StoresRouteAsWritten.DeleteRetiresStoreButFails` | api/routes/stores.route.js:124-131 | for an active store with an active product, the as-written delete retires the store, answers an error and leaves the product active, while the corrected delete succeeds and retires the product |
| `AdminStoresRoute.Flip` | api/routes/admin/stores.route.js:9-35 | the first active store with that id in the opposite state gets the new `enabled` value; if there is none, the given failure is reported |
| `AdminStoresRoute.Enable` | api/routes/admin/stores.route.js:9-21 | succeeds exactly when an active, not yet enabled store has that id; changes only `enabled`; otherwise reports and changes nothing |
| `AdminStoresRoute.Disable` | api/routes/admin/stores.route.js:23-35 | succeeds exactly when an active, enabled store has that id; changes only `enabled`; otherwise reports and changes nothing |
| `AdminStoresRoute.EnableTwiceRefused` | api/routes/admin/stores.route.js:10-16 | with distinct ids, enabling an already enabled store is refused |
| `AdminStoresRoute.EnableThenDisableRestores` | api/routes/admin/stores.route.js:9-35 | with distinct ids, enable followed by disable gives back the original collection |
| `AdminStoresRoute.DisableThenEnableRestores` | api/routes/admin/stores.route.js:9-35 | with distinct ids, disable followed by enable gives back the original collection |
| `AdminUsersRoute.Restore` | api/routes/admin/users.route.js:37-43 | succeeds exactly when an inactive user has that id; only `active` changes, and only on such a user; the reply carries a user of that id now active, without its password |
| `AdminUsersRoute.RestoredUserIsTheReactivatedOne` | api/routes/admin/users.route.js:37-41 | with distinct ids the user sent back is the reactivated record itself |
| `Regex.MatchPlus` | api/utils/regex.js:2-7 | the scan accepts exactly the non-empty strings over the character class |
| `Regex.MatchRut` | api/utils/regex.js:5 | the scan accepts exactly the strings of the rut pattern |
| `Regex.NoneAcceptEmpty` | api/utils/regex.js:2-7 | none of the patterns accepts the empty string |
| `Regex.NamesHaveNoDigits` | api/utils/regex.js:3 | a person's name contains no digit |
| `Regex.NamesAreStoreAndProductNames` | api/utils/regex.js:3-7 | every person's name is also a valid store name and product name |
| `Regex.StoreNamesWiderThanNames` | api/utils/regex.js:3-7 | the store-name class adds exactly `$`, the digits, ü and Ü to the name class, and the product-name class adds exactly `-` to the store-name class; two example strings show it |
| `Regex.RutShape` | api/utils/regex.js:5 | digits followed by two characters form a rut exactly when they are a separator (hyphen, vertical bar or U+2010) and a check character from `[0-9kK]` |
| `Regex.RutExamples` | api/utils/regex.js:5 | the vertical bar is a literal separator, `k` a check character, and no check digit is computed |

## Left out

- HTTP wiring, express-validator chains, status codes and response envelopes. Validated inputs are inputs; where a validator's rejection matters to the ordering of a handler's checks, it is the `ValidationFailed` outcome.
- `populate`, `_id` casting and Mongoose's update operators. Queries are first-match or all-match over sequences.
- Whether the `post('update')` hook fires for `updateOne`. The hook is modelled as the function it defines (`StoreModel.OnUpdate`).
- The exact `nModified` semantics under concurrent writers. The model is single-threaded, and so it does not model the `Promise.all` lookups in orders.
- Authentication, JWT, bcrypt, password recovery and the `isAdmin` guard. The caller's id and store are inputs.
- The media proxy, the Knex shopping cart and the SQL migrations.
- Admin listings (orders, users), the coupon listings, `GET /stores` and `GET /orders`. These are plain finds of the same shape as `ProductsRoute.List`.
- The `DELETE /admin/users/:id` handler. It never awaits its update.
- The e-mail regex, as too intricate for the benefit.
- Descriptions' length limits, image URLs and `createdAt`/`updatedAt` stamps other than the ones a contract mentions.
- Floating point. Prices are real numbers, so rounding and precision are not modelled.
- Trimming and lower-casing of inputs by the validators.
- `OrdersRoute.Create` models the intended order totals; the two defects of the route as written (the missing `getTotal` and the read of `respObj.total`) are under Findings and modelled by `OrdersRouteAsWritten.CreateAsWritten`.
- `StoresRoute.Delete` models the intended cascade; as written the route calls an `onDisabled` that `Store.model.js` does not export, which is under Findings and modelled by `StoresRouteAsWritten.DeleteAsWritten`.
- `StoreModel.DeactivateDependents` reports a failed write as `StorageError`; the `post('update')` hook as written throws inside its callbacks, where no caller receives the error, so the source reports nothing.
- The store-level `onDisabled` and `onEnabled`, which `User.model.js` imports (as `onStoreDisabled` and `onStoreEnabled`) from `Store.model.js` without either being exported, so as written the user-level cascades raise a TypeError once they find a store. `UserModel.OnDisabled` and `UserModel.OnEnabled` take the store-level action as a parameter and model the intended cascades.
- The stores route's update refusal replies with the imported middleware function instead of the `storeExists` message. Only the reason is modelled.
- `ProductModel.New` gives every new product `enabled = true`. The product schema declares no `enabled` field, so as written a saved product has none, and every product query filtering on `enabled: true` (listing, lookup, name check, update, delete, and the orders route's product lookups at api/routes/orders.route.js:51) matches no stored product. The model follows the evident intent of those filters.
- The coupon-name pattern `regex.couponNames`, which `api/utils/regex.js` does not define. The route validators' `.matches(undefined)` accepts any name, but the coupon schema declares `match: regex.couponNames` (api/models/Coupon.model.js:23); on a reading of Mongoose's string `match` validator, which fails when it has no pattern, every coupon save and every coupon update carrying a name then fails as written. The model checks coupon names for length only, as if the pattern were defined and accepted them.
- The stores middleware as written (api/middlewares/stores.middleware.js:7) calls `Store.findOne` without `await`, so `req.store` is always a query object whose `_id` and `enabled` are undefined. As written, POST /stores then always answers that the user already has a store, every product write answers that the store is unauthorised, and DELETE /stores looks up `_id: undefined` and answers that the store was not found. The model takes the caller's store as the middleware is evidently meant to supply it: the user's active store, or none.
- A query on an absent (`undefined`) field, such as a category or coupon update without a name, is modelled as matching nothing, because those fields are required and never null.
- `CouponsRoute.Update`: a value above maxPrice sent without `percentage` is judged on the rewritten coupon, after the lookup, because the corrected clamp needs the stored coupon's kind; when no coupon matches, that body gets `couponUpdateFailed` rather than the validation error the update validators would raise.
- `UserModel.OnDisabled`: when the user owns several active stores, the contract says the cascade runs on one of them, not that it is the first one found.
- `UserModel.OnEnabled`: the same, for the user's inactive stores.

## Findings

| source | as written | input that shows it | evidently intended | confidence | as-written member | corrected member |
|---|---|---|---|---|---|---|
| api/utils/functions.js:18 | `product.store === coupon.store` compares two ObjectId objects by reference, and documents loaded separately never share one | a 20% coupon of store 1 and a product of store 1 priced 100: the price stays 100 | compare the store ids by value, so the price becomes 80 | high; not executed | `FunctionsAsWritten.SameStoreCouponIgnored` | `Functions.ApplyAll` |
| api/routes/coupons.route.js:79 | the clamp tests the body's `percentage`, which is absent before the schema default `true` applies | POST a coupon with value 150 and no `percentage`: once the stores middleware awaits its query and the coupon-name pattern is defined so that the save succeeds, a 150% coupon is stored; once the store comparison of api/utils/functions.js:18 is corrected so that coupons apply, it takes a price of 10 to -5 | clamp on the coupon's effective kind | high; not executed | `CouponsRouteAsWritten.OmittedPercentageEscapesClamp` | `CouponsRoute.CreateClampsOmittedPercentage` |
| api/routes/tags.route.js:19 | `product.tags.forEach` runs on a field whose schema default is null (api/models/Product.model.js:52-55) | one active product created without tags: the route throws and answers with an error | treat missing tags as an empty list | high; not executed | `TagsRouteAsWritten.UntaggedProductFailsRoute` | `TagsRoute.Tags` |
| api/routes/categories.route.js:160 | the children cascade uses the legacy `Model.update`, which without the `multi` option rewrites only the first matching document | deleting a category with two active children: the second child stays active | deactivate every active direct child | medium; not executed | `CategoriesRouteAsWritten.SecondChildSurvives` | `CategoriesRoute.Delete` |
| api/routes/coupons.route.js:125 | the update's clamp tests the body's `percentage`, so an update that omits it is not clamped even when the coupon is a percentage coupon | once the stores middleware awaits its query, PUT value 150 without `percentage`, name or expiration on a percentage coupon: the coupon becomes a 150% coupon | clamp on the kind the coupon has after the update | high; not executed | `CouponsRouteAsWritten.UpdateWithoutPercentageEscapesClamp` | `CouponsRoute.Rewrite` |
| api/routes/orders.route.js:60 | `getTotal` is imported from api/utils/functions.js, which exports only `getSubtotal` and `applyCoupons`, so the call raises a TypeError that the route answers as an error | POST an order with one product and an empty coupon list: it is refused and nothing is saved | use the subtotal as the total when no coupon is sent | high; not executed | `OrdersRouteAsWritten.OrderWithoutCouponsRefused` | `OrdersRoute.Create` |
| api/routes/orders.route.js:70 | `respObj.total` reads a property of the number `applyCoupons` returns, which is undefined, so the schema default total 0 is saved (api/models/Order.model.js:37-42) | POST an order with one product priced 10 and a coupon of another store: the order's total is 0 instead of 10 | use the number `applyCoupons` returns as the total | high; not executed | `OrdersRouteAsWritten.CouponOrderTotalLost` | `OrdersRoute.Create` |
| api/routes/stores.route.js:129 | `onDisabled` is imported from api/models/Store.model.js, which does not export it, so the call raises a TypeError after the store's `active=false` is written | DELETE /stores for an active store with one active product, once the stores middleware awaits its query so that the route finds the store: the store is retired, the answer is an error, and the product stays active | cascade the store's products and coupons and answer success | high; not executed | `StoresRouteAsWritten.DeleteRetiresStoreButFails` | `StoresRoute.Delete` |

=== FILE: admin_stores_route.dfy ===
/** The administrator's approval switch (api/routes/admin/stores.route.js):
    it flips `enabled` on an active store and nothing else. */
module AdminStoresRoute {
  import opened Collection
  import opened Messages
  import opened StoreModel

  datatype Reply = Reply(stores: seq<Store>, outcome: Outcome)

  function StoreId(s: Store): Id { s.id }

  /** The first active store with that id whose `enabled` equals `from`. */
  function Target(stores: seq<Store>, id: Id, from: bool): Option<nat> {
    FirstIndex(stores, (s: Store) => s.id == id && s.active && s.enabled == from)
  }

  /** Set `enabled` to `to` on the first active store with that id that is
      not yet so; when there is none, `failure` is reported and nothing
      changes. */
  function Flip(stores: seq<Store>, id: Id, to: bool, failure: Reason): (r: Reply)
    ensures |r.stores| == |stores|
    ensures Target(stores, id, !to).None? ==> r == Reply(stores, Fail(failure))
    ensures Target(stores, id, !to).Some? ==>
              var i := Target(stores, id, !to).value;
              r == Reply(stores[i := stores[i].(enabled := to)], Ok)
  {
    var u := UpdateOne(stores, (s: Store) => s.id == id && s.active && s.enabled == !to, (s: Store) => s.(enabled := to));
    if u.modified then Reply(u.records, Ok) else Reply(stores, Fail(failure))
  }

  /** POST /admin/stores/:id/enable: an active, not yet enabled store becomes
      enabled; one already enabled, inactive or missing is reported. */
  function Enable(stores: seq<Store>, id: Id): (r: Reply)
    ensures r.outcome.Ok? <==> exists j :: 0 <= j < |stores| && stores[j].id == id && stores[j].active && !stores[j].enabled
    ensures r.outcome.Fail? ==> r == Reply(stores, Fail(AdminStoresAlreadyEnabled))
    ensures |r.stores| == |stores|
    ensures forall j :: 0 <= j < |stores| ==> r.stores[j] == stores[j].(enabled := r.stores[j].enabled)
  {
    Flip(stores, id, true, AdminStoresAlreadyEnabled)
  }

  /** POST /admin/stores/:id/disable: an active, enabled store becomes
      disabled; one already disabled, inactive or missing is reported. */
  function Disable(stores: seq<Store>, id: Id): (r: Reply)
    ensures r.outcome.Ok? <==> exists j :: 0 <= j < |stores| && stores[j].id == id && stores[j].active && stores[j].enabled
    ensures r.outcome.Fail? ==> r == Reply(stores, Fail(AdminStoresAlreadyDisabled))
    ensures |r.stores| == |stores|
    ensures forall j :: 0 <= j < |stores| ==> r.stores[j] == stores[j].(enabled := r.stores[j].enabled)
  {
    Flip(stores, id, false, AdminStoresAlreadyDisabled)
  }

  /** Enabling twice: the second call is refused. */
  lemma EnableTwiceRefused(stores: seq<Store>, id: Id)
    requires UniqueBy(stores, StoreId)
    ensures var r := Enable(stores, id);
            r.outcome.Ok? ==> Enable(r.stores, id) == Reply(r.stores, Fail(AdminStoresAlreadyEnabled))
  {
  }

  /** Enable followed by disable gives back the original collection (store
      ids being distinct). */
  lemma EnableThenDisableRestores(stores: seq<Store>, id: Id)
    requires UniqueBy(stores, StoreId)
    ensures var e := Enable(stores, id);
            e.outcome.Ok? ==> Disable(e.stores, id) == Reply(stores, Ok)
  {
  }

  /** Disable followed by enable gives back the original collection. */
  lemma DisableThenEnableRestores(stores: seq<Store>, id: Id)
    requires UniqueBy(stores, StoreId)
    ensures var d := Disable(stores, id);
            d.outcome.Ok? ==> Enable(d.stores, id) == Reply(stores, Ok)
  {
  }
}

=== FILE: admin_users_route.dfy ===
/** The administrator's reactivation of a soft-deleted user
    (api/routes/admin/users.route.js). */
module AdminUsersRoute {
  import opened Collection
  import opened Messages
  import opened UserModel

  /** The users after the call, the outcome, and the serialized user sent back. */
  datatype Reply = Reply(users: seq<User>, outcome: Outcome, user: Option<UserJson>)

  function UserId(u: User): Id { u.id }

  function Inactive(users: seq<User>, id: Id): Option<nat> {
    FirstIndex(users, (u: User) => u.id == id && !u.active)
  }

  function Reactivate(u: User): User { u.(active := true) }

  /** PUT /admin/users/:id: an inactive user becomes active again, with
      every other field kept; an active or missing user is reported. On
      success the reply carries the user now found active, without its
      password. */
  function Restore(users: seq<User>, id: Id): (r: Reply)
    ensures |r.users| == |users|
    ensures r.outcome.Ok? <==> exists j :: 0 <= j < |users| && users[j].id == id && !users[j].active
    ensures r.outcome.Fail? ==> r == Reply(users, Fail(UserNotFound), None)
    ensures forall j :: 0 <= j < |users| ==> r.users[j] == users[j].(active := r.users[j].active)
    ensures forall j :: 0 <= j < |users| && r.users[j] != users[j] ==> users[j].id == id && !users[j].active
    ensures r.outcome.Ok? ==>
              exists j :: 0 <= j < |r.users| && r.users[j].id == id && r.users[j].active
                          && r.user == Some(ToJson(r.users[j]))
  {
    var u := UpdateOne(users, (u: User) => u.id == id && !u.active, Reactivate);
    if !u.modified then Reply(users, Fail(UserNotFound), None)
    else
      assert u.records[Inactive(users, id).value].id == id;
      match FindOne(u.records, (v: User) => v.id == id && v.active)
      case Some(found) => Reply(u.records, Ok, Some(ToJson(found)))
      case None => assert false; Reply(users, Fail(UserNotFound), None)
  }

  /** With distinct ids the user sent back is the one reactivated: its
      stored record with `active` switched on, minus the password. */
  lemma RestoredUserIsTheReactivatedOne(users: seq<User>, id: Id)
    requires UniqueBy(users, UserId)
    ensures var r := Restore(users, id);
            r.outcome.Ok? ==> r.user == Some(ToJson(Reactivate(users[Inactive(users, id).value])))
  {
  }
}

=== FILE: categories_route.dfy ===
/** The category routes (api/routes/categories.route.js): listings, and the
    admin create, update and delete with its one-level cascade. */
module CategoriesRoute {
  import opened Collection
  import opened Messages
  import opened CategoryModel
  import ProductModel
  import Constants

  datatype Reply = Reply(categories: seq<Category>, outcome: Outcome)

  /** GET /categories: the active categories. */
  function List(categories: seq<Category>): (r: seq<Category>)
    ensures forall i :: 0 <= i < |r| ==> r[i].active && r[i] in categories
    ensures forall j :: 0 <= j < |categories| && categories[j].active ==> categories[j] in r
  {
    Find(categories, (c: Category) => c.active)
  }

  /** GET /categories/:id: exactly the active categories whose parent is `id`. */
  function Subcategories(categories: seq<Category>, id: Id): (r: seq<Category>)
    ensures forall i :: 0 <= i < |r| ==> r[i].active && r[i].parent == Some(id) && r[i] in categories
    ensures forall j :: 0 <= j < |categories| && categories[j].active && categories[j].parent == Some(id) ==>
              categories[j] in r
  {
    Find(categories, (c: Category) => c.parent == Some(id) && c.active)
  }

  /** GET /categories/:id/products: the active, enabled products of the category. */
  function ProductsOf(products: seq<ProductModel.Product>, id: Id): (r: seq<ProductModel.Product>)
    ensures forall i :: 0 <= i < |r| ==> r[i].category == id && r[i].active && r[i].enabled && r[i] in products
    ensures forall j :: 0 <= j < |products| && products[j].category == id && products[j].active && products[j].enabled ==>
              products[j] in r
  {
    Find(products, (p: ProductModel.Product) => p.category == id && p.active && p.enabled)
  }

  /** The active categories carrying a name. */
  function Holders(categories: seq<Category>, name: string): seq<Category> {
    Find(categories, (c: Category) => c.active && c.name == name)
  }

  /** What the validators demand of a create body: a name within the length limits. */
  predicate NameInBounds(name: string) {
    Constants.NamesMinLength <= |name| <= Constants.NamesMaxLength
  }

  predicate ValidCreateBody(body: CategoryBody) {
    body.name.Some? && NameInBounds(body.name.value)
  }

  /** An update body's name is checked only when one is given. */
  predicate ValidUpdateBody(body: CategoryBody) {
    body.name.Some? ==> NameInBounds(body.name.value)
  }

  /** POST /categories: after validation, a name held by any active category is refused. */
  function Create(categories: seq<Category>, body: CategoryBody, newId: Id): (r: Reply)
    ensures r.outcome.Fail? ==> r.categories == categories
    ensures !ValidCreateBody(body) ==> r.outcome == Fail(ValidationFailed)
    ensures ValidCreateBody(body) ==>
              (r.outcome == Fail(CategoryExists) <==>
                 exists j :: 0 <= j < |categories| && categories[j].active && categories[j].name == body.name.value)
    ensures r.outcome.Ok? ==>
              && ValidCreateBody(body)
              && r.categories == categories + [New(newId, body.name.value, body)]
    ensures ValidCreateBody(body) ==> r.outcome.Ok? || r.outcome == Fail(CategoryExists)
  {
    if !ValidCreateBody(body) then Reply(categories, Fail(ValidationFailed))
    else if Any(categories, (c: Category) => c.active && c.name == body.name.value) then
      Reply(categories, Fail(CategoryExists))
    else
      Reply(categories + [New(newId, body.name.value, body)], Ok)
  }

  function FirstActive(categories: seq<Category>, id: Id): Option<nat> {
    FirstIndex(categories, (c: Category) => c.id == id && c.active)
  }

  /** PUT /categories/:id. A given name outside the length bounds is
      refused. The requested name is refused only when two or more active
      categories already hold it, so a name held by exactly one category
      (even another one) passes. Only the active category with that id
      changes. */
  function Update(categories: seq<Category>, id: Id, body: CategoryBody, now: int): (r: Reply)
    ensures r.outcome.Fail? ==> r.categories == categories
    ensures !ValidUpdateBody(body) ==> r == Reply(categories, Fail(ValidationFailed))
    ensures ValidUpdateBody(body) && body.name.Some? && |Holders(categories, body.name.value)| > 1 ==>
              r == Reply(categories, Fail(CategoryExists))
    ensures ValidUpdateBody(body) && (body.name.None? || |Holders(categories, body.name.value)| <= 1)
              && FirstActive(categories, id).Some? ==>
              var i := FirstActive(categories, id).value;
              r == if Patch(categories[i], body, now) == categories[i] then Reply(categories, Fail(CategoryNotFound))
                   else Reply(categories[i := Patch(categories[i], body, now)], Ok)
    ensures ValidUpdateBody(body) && (body.name.None? || |Holders(categories, body.name.value)| <= 1)
              && FirstActive(categories, id).None? ==>
              r == Reply(categories, Fail(CategoryNotFound))
  {
    if !ValidUpdateBody(body) then Reply(categories, Fail(ValidationFailed))
    else if body.name.Some? && |Holders(categories, body.name.value)| > 1 then
      Reply(categories, Fail(CategoryExists))
    else
      var u := UpdateOne(categories, (c: Category) => c.id == id && c.active, (c: Category) => Patch(c, body, now));
      if !u.modified then Reply(categories, Fail(CategoryNotFound)) else Reply(u.records, Ok)
  }

  /** Renaming to a name exactly one other active category holds is allowed. */
  lemma RenameToSingleHolderAllowed(categories: seq<Category>, id: Id, name: string, now: int)
    requires NameInBounds(name)
    requires |Holders(categories, name)| == 1
    requires FirstActive(categories, id).Some?
    requires categories[FirstActive(categories, id).value].updatedAt != Some(now)
    ensures Update(categories, id, CategoryBody(Some(name), None, None), now).outcome == Ok
  {
  }

  function Deactivate(c: Category): Category { c.(active := false) }

  /** A direct child of `id` still active. */
  predicate ActiveChild(c: Category, id: Id) { c.parent == Some(id) && c.active }

  /** DELETE /categories/:id. A missing or inactive category is reported and
      nothing changes. Otherwise the category is deactivated, then every
      active direct child, before the modified count is looked at;
      grandchildren and all other categories are untouched. */
  function Delete(categories: seq<Category>, id: Id): (r: Reply)
    ensures |r.categories| == |categories|
    ensures FirstActive(categories, id).None? ==> r == Reply(categories, Fail(CategoryNotFound))
    ensures FirstActive(categories, id).Some? ==>
              && r.outcome == Ok
              && var i := FirstActive(categories, id).value;
                 forall j :: 0 <= j < |categories| ==>
                   r.categories[j] == (if j == i || ActiveChild(categories[j], id) then Deactivate(categories[j])
                                       else categories[j])
  {
    match FindOne(categories, (c: Category) => c.id == id && c.active)
    case None => Reply(categories, Fail(CategoryNotFound))
    case Some(found) =>
      var u := UpdateOne(categories, (c: Category) => c.id == id && c.active, Deactivate);
      var cascaded := UpdateMany(u.records, (c: Category) => ActiveChild(c, id), Deactivate);
      if !u.modified then Reply(cascaded, Fail(CategoryAlreadyDisabled)) else Reply(cascaded, Ok)
  }

  /** A grandchild (a category whose parent is a child of the deleted one)
      keeps its flag, and so does every category outside the deleted one's
      first level. */
  lemma GrandchildrenUntouched(categories: seq<Category>, id: Id, j: int)
    requires 0 <= j < |categories|
    requires categories[j].id != id && categories[j].parent != Some(id)
    ensures Delete(categories, id).categories[j] == categories[j]
  {
  }

  /** After a delete that found the category no direct child of it is
      active, and (with distinct category ids) the category itself is
      inactive whatever the outcome. */
  lemma DeleteLeavesNothingActive(categories: seq<Category>, id: Id)
    requires UniqueBy(categories, CategoryId)
    ensures FirstActive(categories, id).Some? ==>
              forall j :: 0 <= j < |categories| ==> !ActiveChild(Delete(categories, id).categories[j], id)
    ensures forall j :: 0 <= j < |categories| && categories[j].id == id ==> !Delete(categories, id).categories[j].active
  {
  }

  function CategoryId(c: Category): Id { c.id }
}

/** The cascade exactly as written uses the legacy `Model.update`, which
    without the `multi` option rewrites only the first matching document. */
module CategoriesRouteAsWritten {
  import opened Collection
  import opened Messages
  import opened CategoryModel
  import CategoriesRoute

  function DeleteAsWritten(categories: seq<Category>, id: Id): CategoriesRoute.Reply {
    match FindOne(categories, (c: Category) => c.id == id && c.active)
    case None => CategoriesRoute.Reply(categories, Fail(CategoryNotFound))
    case Some(found) =>
      var u := UpdateOne(categories, (c: Category) => c.id == id && c.active, CategoriesRoute.Deactivate);
      var cascaded := UpdateOne(u.records, (c: Category) => CategoriesRoute.ActiveChild(c, id), CategoriesRoute.Deactivate);
      if !u.modified then CategoriesRoute.Reply(cascaded.records, Fail(CategoryAlreadyDisabled))
      else CategoriesRoute.Reply(cascaded.records, Ok)
  }

  /** The input that shows it: a category with two active children. As
      written the second child stays active; the corrected delete
      deactivates both. */
  lemma SecondChildSurvives(parent: Category, c1: Category, c2: Category)
    requires parent.active && parent.parent.None?
    requires c1.active && c1.parent == Some(parent.id) && c1.id != parent.id
    requires c2.active && c2.parent == Some(parent.id) && c2.id != parent.id
    ensures DeleteAsWritten([parent, c1, c2], parent.id).categories[2].active
    ensures !CategoriesRoute.Delete([parent, c1, c2], parent.id).categories[2].active
  {
    var s := [parent, c1, c2];
    assert FirstIndex(s, (c: Category) => c.id == parent.id && c.active) == Some(0);
    var s1 := s[0 := CategoriesRoute.Deactivate(parent)];
    assert FirstIndex(s1, (c: Category) => CategoriesRoute.ActiveChild(c, parent.id)) == Some(1);
  }
}

=== FILE: category_model.dfy ===
/** The Category document (api/models/Category.model.js). */
module CategoryModel {
  import opened Collection

  datatype Category = Category(
    id: Id,
    name: string,
    parent: Option<Id>,
    imageUrl: Option<string>,
    active: bool,
    updatedAt: Option<int>)

  /** The body after `_.pick` with the fillable (or updatable) fields: name, parent, imageUrl. */
  datatype CategoryBody = CategoryBody(name: Option<string>, parent: Option<Id>, imageUrl: Option<string>)

  /** A new category: no parent unless given, active. */
  function New(id: Id, name: string, b: CategoryBody): (c: Category)
    ensures c.id == id && c.name == name && c.parent == b.parent && c.active
  {
    Category(id, name, b.parent, b.imageUrl, true, None)
  }

  function Patch(c: Category, b: CategoryBody, now: int): (r: Category)
    ensures r.id == c.id && r.active == c.active && r.updatedAt == Some(now)
    ensures Written(b.name, c.name, r.name)
    ensures WrittenOpt(b.parent, c.parent, r.parent) && WrittenOpt(b.imageUrl, c.imageUrl, r.imageUrl)
  {
    Category(c.id, b.name.GetOr(c.name), Either(b.parent, c.parent), Either(b.imageUrl, c.imageUrl),
             c.active, Some(now))
  }
}

=== FILE: collection.dfy ===
/** Query semantics of the document store, over an in-memory collection.

    A collection is a sequence of records in natural (insertion) order.
    `findOne` returns the first match, `find` every match in order,
    `updateOne` rewrites the first match and reports whether it changed
    (the store's `nModified`), `updateMany` rewrites every match. */
module Collection {

  /** A document identifier (an ObjectId's value). */
  type Id = nat

  datatype Option<+T> = None | Some(value: T) {
    function GetOr(default: T): T {
      match this
      case Some(v) => v
      case None => default
    }
  }

  /** The new value when one is given, otherwise the current one (for nullable fields). */
  function Either<T>(v: Option<T>, current: Option<T>): Option<T> {
    if v.Some? then v else current
  }

  /** An update's effect on one field: a requested value is written, and an
      absent one leaves the field as it was. */
  predicate Written<T(==)>(requested: Option<T>, before: T, after: T) {
    && (requested.Some? ==> after == requested.value)
    && (requested.None? ==> after == before)
  }

  /** The same for a nullable field. */
  predicate WrittenOpt<T(==)>(requested: Option<T>, before: Option<T>, after: Option<T>) {
    && (requested.Some? ==> after == requested)
    && (requested.None? ==> after == before)
  }

  /** Position of the first record satisfying `p`. */
  function FirstIndex<T>(s: seq<T>, p: T -> bool): (r: Option<nat>)
    ensures r.Some? ==> r.value < |s| && p(s[r.value])
    ensures r.Some? ==> forall j :: 0 <= j < r.value ==> !p(s[j])
    ensures r.None? <==> forall j :: 0 <= j < |s| ==> !p(s[j])
  {
    if |s| == 0 then None
    else if p(s[0]) then Some(0)
    else match FirstIndex(s[1..], p)
      case None => None
      case Some(k) => Some(k + 1)
  }

  /** `findOne`: the first record satisfying `p`, if any. */
  function FindOne<T>(s: seq<T>, p: T -> bool): (r: Option<T>)
    ensures r.None? <==> forall j :: 0 <= j < |s| ==> !p(s[j])
    ensures r.Some? ==> r.value in s && p(r.value)
  {
    match FirstIndex(s, p)
    case None => None
    case Some(i) => Some(s[i])
  }

  /** `find`: every record satisfying `p`, in collection order. */
  function Find<T>(s: seq<T>, p: T -> bool): (r: seq<T>)
    ensures |r| <= |s|
    ensures forall i :: 0 <= i < |r| ==> r[i] in s && p(r[i])
    ensures forall j :: 0 <= j < |s| && p(s[j]) ==> s[j] in r
  {
    if |s| == 0 then []
    else (if p(s[0]) then [s[0]] else []) + Find(s[1..], p)
  }

  /** `exists`: does any record satisfy `p`? */
  predicate Any<T>(s: seq<T>, p: T -> bool) {
    exists j :: 0 <= j < |s| && p(s[j])
  }

  /** The result of `updateOne`: the new collection and whether a record changed. */
  datatype Update<T> = Update(records: seq<T>, modified: bool)

  /** `updateOne`: rewrite the first match with `f`. */
  function UpdateOne<T(==)>(s: seq<T>, p: T -> bool, f: T -> T): (r: Update<T>)
    ensures |r.records| == |s|
    ensures FirstIndex(s, p).None? ==> r.records == s && !r.modified
    ensures FirstIndex(s, p).Some? ==>
              var i := FirstIndex(s, p).value;
              r.records == s[i := f(s[i])] && (r.modified <==> f(s[i]) != s[i])
  {
    match FirstIndex(s, p)
    case None => Update(s, false)
    case Some(i) => Update(s[i := f(s[i])], f(s[i]) != s[i])
  }

  /** `updateMany`: rewrite every match with `f`, leave the rest alone. */
  function UpdateMany<T>(s: seq<T>, p: T -> bool, f: T -> T): (r: seq<T>)
    ensures |r| == |s|
    ensures forall i :: 0 <= i < |s| && p(s[i]) ==> r[i] == f(s[i])
    ensures forall i :: 0 <= i < |s| && !p(s[i]) ==> r[i] == s[i]
  {
    seq(|s|, i requires 0 <= i < |s| => if p(s[i]) then f(s[i]) else s[i])
  }

  /** No two records share a key (documents have distinct `_id`s). */
  predicate UniqueBy<T, K(==)>(s: seq<T>, key: T -> K) {
    forall i, j :: 0 <= i < j < |s| ==> key(s[i]) != key(s[j])
  }
}

=== FILE: constants.dfy ===
/** Numeric limits shared by the schemas and validators (api/utils/constants.js). */
module Constants {
  const MinPrice: real := 0.01
  const MaxPrice: real := 999999999999.99
  const MinDiscount: real := 0.0
  const MaxDiscount: real := 100.0
  const NamesMinLength: nat := 3
  const NamesMaxLength: nat := 128
  const UsernameMinLength: nat := 8
  const UsernameMaxLength: nat := 32
}

=== FILE: coupon_model.dfy ===
/** The Coupon document (api/models/Coupon.model.js). */
module CouponModel {
  import opened Collection
  import Constants

  /** `expiration` is a timestamp in milliseconds; `value` is a percentage when
      `percentage` holds and a currency amount otherwise. */
  datatype Coupon = Coupon(
    id: Id,
    name: string,
    expiration: int,
    value: real,
    percentage: bool,
    store: Id,
    enabled: bool,
    updatedAt: Option<int>,
    active: bool)

  /** The body a client may send. */
  datatype CouponBody = CouponBody(
    name: Option<string>,
    expiration: Option<int>,
    value: Option<real>,
    percentage: Option<bool>,
    store: Option<Id>,
    enabled: Option<bool>,
    active: Option<bool>)

  datatype Field = Name | Expiration | Value | Percentage | Store | Enabled | Active

  const Fillable: set<Field> := {Name, Expiration, Value, Percentage}
  const Updatable: set<Field> := {Name, Expiration, Value, Percentage}

  function Keep<T>(f: Field, fields: set<Field>, v: Option<T>): Option<T> {
    if f in fields then v else None
  }

  /** `_.pick(body, fields)`. */
  function Pick(b: CouponBody, fields: set<Field>): (r: CouponBody)
    ensures Store !in fields ==> r.store.None?
    ensures Enabled !in fields ==> r.enabled.None?
    ensures Active !in fields ==> r.active.None?
    ensures Value in fields && Percentage in fields ==> r.value == b.value && r.percentage == b.percentage
  {
    CouponBody(
      Keep(Name, fields, b.name), Keep(Expiration, fields, b.expiration),
      Keep(Value, fields, b.value), Keep(Percentage, fields, b.percentage),
      Keep(Store, fields, b.store), Keep(Enabled, fields, b.enabled),
      Keep(Active, fields, b.active))
  }

  /** The schema bounds `value` by [0, maxPrice] whatever the coupon's kind. */
  predicate ValidValue(value: real) {
    Constants.MinDiscount <= value <= Constants.MaxPrice
  }

  predicate SchemaValid(c: Coupon) {
    NamesMin(c.name) && ValidValue(c.value)
  }

  predicate NamesMin(name: string) {
    Constants.NamesMinLength <= |name| <= Constants.NamesMaxLength
  }

  /** A new document: `percentage` defaults to true, `enabled` and `active` to true. */
  function New(id: Id, name: string, expiration: int, value: real, b: CouponBody, store: Id): (c: Coupon)
    ensures c.id == id && c.store == store && c.name == name && c.value == value
    ensures c.percentage == b.percentage.GetOr(true)
    ensures c.enabled && c.active && c.updatedAt.None?
  {
    Coupon(id, name, expiration, value, b.percentage.GetOr(true), store, true, None, true)
  }

  /** Write every field present in the body. */
  function Patch(c: Coupon, b: CouponBody): (r: Coupon)
    ensures r.id == c.id && r.updatedAt == c.updatedAt
    ensures b.store.None? ==> r.store == c.store
    ensures b.enabled.None? && b.active.None? ==> r.enabled == c.enabled && r.active == c.active
    ensures Written(b.name, c.name, r.name) && Written(b.expiration, c.expiration, r.expiration)
    ensures Written(b.value, c.value, r.value) && Written(b.percentage, c.percentage, r.percentage)
  {
    Coupon(c.id, b.name.GetOr(c.name), b.expiration.GetOr(c.expiration), b.value.GetOr(c.value),
           b.percentage.GetOr(c.percentage), b.store.GetOr(c.store), b.enabled.GetOr(c.enabled),
           c.updatedAt, b.active.GetOr(c.active))
  }

  /** Neither picked body can carry a store: a coupon's store is never client-chosen. */
  lemma PickedBodiesCarryNoStore(b: CouponBody)
    ensures Pick(b, Fillable).store.None? && Pick(b, Updatable).store.None?
    ensures Pick(b, Fillable).active.None? && Pick(b, Updatable).enabled.None?
    ensures Pick(b, Fillable).enabled.None? && Pick(b, Updatable).active.None?
  {
  }
}

=== FILE: coupons_route.dfy ===
/** The coupon routes (api/routes/coupons.route.js): create, update, delete,
    all scoped to the caller's store. */
module CouponsRoute {
  import opened Collection
  import opened Messages
  import opened CouponModel
  import StoreModel
  import Functions
  import Constants

  datatype Reply = Reply(coupons: seq<Coupon>, outcome: Outcome)

  /** The value clamp: a percentage coupon's value above 100 is stored as 100;
      a flat coupon's value is kept. */
  function Clamp(percentage: bool, value: real): (r: real)
    ensures percentage ==> r <= 100.0
    ensures percentage && value > 100.0 ==> r == 100.0
    ensures r <= value
    ensures !percentage || value <= 100.0 ==> r == value
  {
    if percentage && value > 100.0 then 100.0 else value
  }

  lemma ClampIdempotent(percentage: bool, value: real)
    ensures Clamp(percentage, Clamp(percentage, value)) == Clamp(percentage, value)
  {
  }

  /** The live coupons of a store that carry a name. */
  predicate NameTaken(coupons: seq<Coupon>, store: Id, name: string) {
    exists j :: 0 <= j < |coupons| && Live(coupons[j], store) && coupons[j].name == name
  }

  /** A coupon the caller's store may act on: of that store, active and enabled. */
  predicate Live(c: Coupon, store: Id) {
    c.store == store && c.active && c.enabled
  }

  /** The validators on a create body: name, expiration and value present, the
      name within the length limits, the value within [0, maxPrice]. */
  predicate ValidCreateBody(b: CouponBody) {
    && b.name.Some? && NamesMin(b.name.value)
    && b.expiration.Some?
    && b.value.Some? && ValidValue(b.value.value)
  }

  /** POST /coupons. The caller needs a store, then a valid body. The clamp reads the coupon's
      kind after the schema default, so an omitted `percentage` is a
      percentage. A name used by a live coupon of the same store is refused;
      other stores' names do not matter. The coupon belongs to the caller's
      store whatever the body says. */
  function Create(coupons: seq<Coupon>, callerStore: Option<StoreModel.Store>, body: CouponBody, newId: Id): (r: Reply)
    ensures callerStore.None? ==> r == Reply(coupons, Fail(UserLacksStore))
    ensures r.outcome.Fail? ==> r.coupons == coupons
    ensures callerStore.Some? && !ValidCreateBody(body) ==> r == Reply(coupons, Fail(ValidationFailed))
    ensures callerStore.Some? && ValidCreateBody(body) ==>
              (r.outcome == Fail(CouponExists) <==> NameTaken(coupons, callerStore.value.id, body.name.value))
    ensures r.outcome.Ok? ==>
              && callerStore.Some? && ValidCreateBody(body) && !NameTaken(coupons, callerStore.value.id, body.name.value)
              && |r.coupons| == |coupons| + 1 && r.coupons[..|coupons|] == coupons
              && var c := r.coupons[|coupons|];
                 && c.id == newId && c.store == callerStore.value.id && c.name == body.name.value
                 && c.percentage == body.percentage.GetOr(true)
                 && c.value == Clamp(c.percentage, body.value.value)
                 && c.expiration == body.expiration.value
                 && c.active && c.enabled
                 && Functions.Sane(c) && SchemaValid(c)
    ensures callerStore.Some? && ValidCreateBody(body) && !NameTaken(coupons, callerStore.value.id, body.name.value) ==> r.outcome.Ok?
  {
    match callerStore
    case None => Reply(coupons, Fail(UserLacksStore))
    case Some(store) =>
      if !ValidCreateBody(body) then Reply(coupons, Fail(ValidationFailed))
      else
      var picked := Pick(body, Fillable);
      var percentage := picked.percentage.GetOr(true);
      var value := Clamp(percentage, picked.value.value);
      if Any(coupons, (c: Coupon) => Live(c, store.id) && c.name == picked.name.value) then
        Reply(coupons, Fail(CouponExists))
      else
        Reply(coupons + [New(newId, picked.name.value, picked.expiration.value, value, picked, store.id)], Ok)
  }

  /** A create body with value 150 and no `percentage` makes a percentage
      coupon, and the clamp on that kind stores 100. */
  lemma CreateClampsOmittedPercentage(coupons: seq<Coupon>, store: StoreModel.Store, b: CouponBody, newId: Id)
    requires ValidCreateBody(b) && b.percentage.None? && b.value == Some(150.0)
    requires !NameTaken(coupons, store.id, b.name.value)
    ensures var r := Create(coupons, Some(store), b, newId);
            && r.outcome.Ok?
            && r.coupons[|coupons|].percentage && r.coupons[|coupons|].value == 100.0
  {
  }

  /** What an update writes: the picked fields, the clamp on the resulting
      coupon, and the update time. */
  function Rewrite(c: Coupon, picked: CouponBody, now: int): (r: Coupon)
    ensures r.id == c.id && r.store == c.store && r.active == c.active && r.enabled == c.enabled
    ensures r.name == picked.name.GetOr(c.name) && r.expiration == picked.expiration.GetOr(c.expiration)
    ensures r.percentage == picked.percentage.GetOr(c.percentage)
    ensures r.value == Clamp(r.percentage, picked.value.GetOr(c.value))
    ensures r.percentage ==> r.value <= 100.0
    ensures r.updatedAt == Some(now)
  {
    var patched := Patch(c, Pick(picked, Updatable));
    patched.(value := Clamp(patched.percentage, patched.value), updatedAt := Some(now))
  }

  /** The validators on an update body: a given name within the length
      limits, and, whenever an expiration is given, a value within
      [0, maxPrice] (the value validator runs only when an expiration is
      sent, and then requires a value). */
  predicate ValidUpdateBody(b: CouponBody) {
    && (b.name.Some? ==> NamesMin(b.name.value))
    && (b.expiration.Some? ==> b.value.Some? && ValidValue(b.value.value))
  }

  /** A value the update validators reject whatever coupon the update
      reaches: a negative value, or a value above maxPrice on a body that
      declares the coupon flat. A value above maxPrice with no `percentage`
      in the body depends on the stored coupon's kind. */
  predicate ValueAlwaysRejected(b: CouponBody) {
    && b.value.Some?
    && (b.value.value < Constants.MinDiscount
        || (b.value.value > Constants.MaxPrice && b.percentage == Some(false)))
  }

  function FirstLive(coupons: seq<Coupon>, id: Id, store: Id): Option<nat> {
    FirstIndex(coupons, (c: Coupon) => c.id == id && Live(c, store))
  }

  /** PUT /coupons/:id. A body the route's validators reject is refused
      before anything is looked up; a requested name held by any live coupon
      of the store is refused, the coupon itself included. The update
      validators then refuse a value outside [0, maxPrice]: before the
      update reaches any coupon when the body alone decides it, and on the
      rewritten coupon otherwise. Only the caller's live coupon with that id
      is updated. */
  function Update(coupons: seq<Coupon>, callerStore: Option<StoreModel.Store>, id: Id, body: CouponBody, now: int): (r: Reply)
    ensures callerStore.None? ==> r == Reply(coupons, Fail(UserLacksStore))
    ensures r.outcome.Fail? ==> r.coupons == coupons
    ensures callerStore.Some? && !ValidUpdateBody(body) ==> r == Reply(coupons, Fail(ValidationFailed))
    ensures callerStore.Some? && ValidUpdateBody(body) && body.name.Some?
              && NameTaken(coupons, callerStore.value.id, body.name.value) ==>
              r.outcome == Fail(CouponExists)
    ensures callerStore.Some? && ValidUpdateBody(body)
              && !(body.name.Some? && NameTaken(coupons, callerStore.value.id, body.name.value))
              && ValueAlwaysRejected(body) ==>
              r == Reply(coupons, Fail(ValidationFailed))
    ensures callerStore.Some? && FirstLive(coupons, id, callerStore.value.id).None? ==> r.outcome.Fail?
    ensures |r.coupons| == |coupons|
    ensures callerStore.Some? && ValidUpdateBody(body)
              && !(body.name.Some? && NameTaken(coupons, callerStore.value.id, body.name.value))
              && !ValueAlwaysRejected(body) ==>
              match FirstLive(coupons, id, callerStore.value.id)
              case None => r == Reply(coupons, Fail(CouponUpdateFailed))
              case Some(i) =>
                r == if !ValidValue(Rewrite(coupons[i], body, now).value) then Reply(coupons, Fail(ValidationFailed))
                     else if Rewrite(coupons[i], body, now) == coupons[i] then Reply(coupons, Fail(CouponUpdateFailed))
                     else Reply(coupons[i := Rewrite(coupons[i], body, now)], Ok)
    ensures r.outcome.Ok? ==>
              && callerStore.Some? && ValidUpdateBody(body) && !ValueAlwaysRejected(body)
              && FirstLive(coupons, id, callerStore.value.id).Some?
              && var i := FirstLive(coupons, id, callerStore.value.id).value;
                 && r.coupons == coupons[i := r.coupons[i]]
                 && r.coupons[i] == Rewrite(coupons[i], body, now)
                 && Functions.Sane(r.coupons[i])
  {
    match callerStore
    case None => Reply(coupons, Fail(UserLacksStore))
    case Some(store) =>
      var picked := Pick(body, Updatable);
      if !ValidUpdateBody(body) then Reply(coupons, Fail(ValidationFailed))
      else if picked.name.Some? && Any(coupons, (c: Coupon) => Live(c, store.id) && c.name == picked.name.value) then
        Reply(coupons, Fail(CouponExists))
      else if ValueAlwaysRejected(body) then Reply(coupons, Fail(ValidationFailed))
      else
        match FirstLive(coupons, id, store.id)
        case None => Reply(coupons, Fail(CouponUpdateFailed))
        case Some(i) =>
          var c := Rewrite(coupons[i], picked, now);
          if !ValidValue(c.value) then Reply(coupons, Fail(ValidationFailed))
          else
            var u := UpdateOne(coupons, (x: Coupon) => x.id == id && Live(x, store.id), (x: Coupon) => Rewrite(x, picked, now));
            if !u.modified then Reply(coupons, Fail(CouponUpdateFailed)) else Reply(u.records, Ok)
  }

  /** A negative value is refused by the update validators even when no
      coupon has the id. */
  lemma NegativeValueRefusedWithoutMatch(store: StoreModel.Store, id: Id, now: int)
    ensures Update([], Some(store), id, CouponBody(None, None, Some(-1.0), None, None, None, None), now)
            == Reply([], Fail(ValidationFailed))
  {
  }

  /** DELETE /coupons/:id: only the caller's live coupon with that id, and only
      its `active` flag. */
  function Delete(coupons: seq<Coupon>, callerStore: Option<StoreModel.Store>, id: Id): (r: Reply)
    ensures callerStore.None? ==> r == Reply(coupons, Fail(UserLacksStore))
    ensures callerStore.Some? && FirstLive(coupons, id, callerStore.value.id).None? ==>
              r == Reply(coupons, Fail(CouponNotFound))
    ensures callerStore.Some? && FirstLive(coupons, id, callerStore.value.id).Some? ==>
              var i := FirstLive(coupons, id, callerStore.value.id).value;
              r == Reply(coupons[i := coupons[i].(active := false)], Ok)
  {
    match callerStore
    case None => Reply(coupons, Fail(UserLacksStore))
    case Some(store) =>
      match FindOne(coupons, (c: Coupon) => c.id == id && Live(c, store.id))
      case None => Reply(coupons, Fail(CouponNotFound))
      case Some(found) =>
        var u := UpdateOne(coupons, (c: Coupon) => c.id == id && Live(c, store.id), StoreModel.DeactivateCoupon);
        if !u.modified then Reply(coupons, Fail(CouponAlreadyDisabled)) else Reply(u.records, Ok)
  }

  function CouponId(c: Coupon): Id { c.id }

  /** With distinct coupon ids, deleting the same coupon again reports
      `couponNotFound` and changes nothing. */
  lemma DeleteTwiceIsReportedNoOp(coupons: seq<Coupon>, store: StoreModel.Store, id: Id)
    requires UniqueBy(coupons, CouponId)
    requires Delete(coupons, Some(store), id).outcome.Ok?
    ensures var once := Delete(coupons, Some(store), id).coupons;
            Delete(once, Some(store), id) == Reply(once, Fail(CouponNotFound))
  {
  }
}

/** The clamp exactly as written tests the body's `percentage`, before the
    schema default fills it in. */
module CouponsRouteAsWritten {
  import opened Collection
  import opened CouponModel
  import Functions
  import CouponsRoute

  function ClampAsWritten(bodyPercentage: Option<bool>, value: real): real {
    if bodyPercentage == Some(true) && value > 100.0 then 100.0 else value
  }

  /** The input that shows it: a create body with value 150 and no
      `percentage` is stored unclamped, the schema makes it a percentage
      coupon, and applied to a product priced 10 it yields a price of -5. */
  lemma OmittedPercentageEscapesClamp(id: Id, name: string, expiration: int, b: CouponBody, store: Id)
    requires b.percentage.None? && b.value == Some(150.0)
    ensures var c := New(id, name, expiration, ClampAsWritten(b.percentage, b.value.value), b, store);
            && c.percentage && c.value == 150.0
            && !Functions.Sane(c)
            && Functions.CouponPrice(10.0, c) == -5.0
  {
  }

  /** The update as written: the clamp reads the body's own `percentage`, so
      an update that omits it leaves any value on a percentage coupon. */
  function RewriteAsWritten(c: Coupon, body: CouponBody, now: int): Coupon {
    var picked := Pick(body, Updatable);
    var clamped := if picked.value.Some? then picked.(value := Some(ClampAsWritten(picked.percentage, picked.value.value))) else picked;
    Patch(c, clamped).(updatedAt := Some(now))
  }

  /** The input that shows it: a percentage coupon updated with value 150 and
      no `percentage` keeps 150 as written, where the clamp on the resulting
      coupon stores 100. */
  lemma UpdateWithoutPercentageEscapesClamp(c: Coupon, b: CouponBody, now: int)
    requires c.percentage && b.percentage.None? && b.value == Some(150.0)
    ensures var w := RewriteAsWritten(c, b, now);
            && w.percentage && w.value == 150.0 && !Functions.Sane(w)
    ensures var fixed := CouponsRoute.Rewrite(c, b, now);
            && fixed.percentage && fixed.value == 100.0
  {
  }
}

=== FILE: functions.dfy ===
/** The pricing engine (api/utils/functions.js): order subtotal and coupon application.
    Prices are modelled as exact reals; `now` is a parameter. */
module Functions {
  import opened Collection
  import opened ProductModel
  import opened CouponModel

  // ---------------------------------------------------------------- subtotal

  /** One line entry's contribution: the price less its catalog discount (a percentage). */
  function Term(p: Product): real {
    p.price * (1.0 - p.discount / 100.0)
  }

  /** The terms of all entries, accumulated left to right; a product listed
      twice is two entries. */
  function Subtotal(ps: seq<Product>): real {
    if |ps| == 0 then 0.0 else Subtotal(ps[..|ps| - 1]) + Term(ps[|ps| - 1])
  }

  /** The undiscounted catalog prices, summed. */
  function PriceSum(ps: seq<Product>): real {
    if |ps| == 0 then 0.0 else PriceSum(ps[..|ps| - 1]) + ps[|ps| - 1].price
  }

  /** `getSubtotal`: the loop over the entries. */
  method GetSubtotal(products: seq<Product>) returns (subtotal: real)
    ensures subtotal == Subtotal(products)
  {
    subtotal := 0.0;
    var i := 0;
    while i < |products|
      invariant 0 <= i <= |products|
      invariant subtotal == Subtotal(products[..i])
    {
      assert products[..i + 1][..i] == products[..i];
      subtotal := subtotal + Term(products[i]);
      i := i + 1;
    }
    assert products[..i] == products;
  }

  /** Appending an entry adds exactly its term. */
  lemma SubtotalAppend(ps: seq<Product>, p: Product)
    ensures Subtotal(ps + [p]) == Subtotal(ps) + Term(p)
  {
  }

  /** The subtotal of a concatenation is the sum of the subtotals. */
  lemma {:induction false} SubtotalConcat(a: seq<Product>, b: seq<Product>)
    ensures Subtotal(a + b) == Subtotal(a) + Subtotal(b)
    decreases |b|
  {
    if |b| == 0 {
      assert a + b == a;
    } else {
      var b' := b[..|b| - 1];
      assert a + b == (a + b') + [b[|b| - 1]];
      assert b == b' + [b[|b| - 1]];
      SubtotalAppend(a + b', b[|b| - 1]);
      SubtotalAppend(b', b[|b| - 1]);
      SubtotalConcat(a, b');
    }
  }

  /** Taking one entry out removes exactly its term. */
  lemma SubtotalRemove(b: seq<Product>, k: int)
    requires 0 <= k < |b|
    ensures Subtotal(b) == Subtotal(b[..k] + b[k + 1..]) + Term(b[k])
  {
    var b1, x, b2 := b[..k], b[k], b[k + 1..];
    assert b == (b1 + [x]) + b2;
    SubtotalConcat(b1 + [x], b2);
    SubtotalAppend(b1, x);
    SubtotalConcat(b1, b2);
  }

  lemma MultisetRemove(a': seq<Product>, x: Product, b: seq<Product>, k: int)
    requires 0 <= k < |b| && b[k] == x
    requires multiset(a' + [x]) == multiset(b)
    ensures multiset(a') == multiset(b[..k] + b[k + 1..])
  {
    var b1, b2 := b[..k], b[k + 1..];
    assert b == b1 + ([x] + b2);
    calc {
      multiset(a');
      multiset(a' + [x]) - multiset{x};
      multiset(b) - multiset{x};
      (multiset(b1) + multiset{x} + multiset(b2)) - multiset{x};
      multiset(b1) + multiset(b2);
      multiset(b1 + b2);
    }
  }

  /** Entry order is irrelevant: reordering the entries keeps the subtotal,
      so each entry counts once per occurrence. */
  lemma {:induction false} SubtotalPermutation(a: seq<Product>, b: seq<Product>)
    requires multiset(a) == multiset(b)
    ensures Subtotal(a) == Subtotal(b)
    decreases |a|
  {
    if |a| == 0 {
      assert |b| == |multiset(b)| == 0;
    } else {
      var x := a[|a| - 1];
      var a' := a[..|a| - 1];
      assert a == a' + [x];
      assert x in multiset(b);
      var k :| 0 <= k < |b| && b[k] == x;
      MultisetRemove(a', x, b, k);
      SubtotalPermutation(a', b[..k] + b[k + 1..]);
      SubtotalRemove(b, k);
    }
  }

  /** Catalog data the schema admits for pricing: a non-negative price and a
      discount in [0, 100]. */
  predicate Priceable(p: Product) {
    p.price >= 0.0 && ValidDiscount(p.discount)
  }

  /** A schema-valid product is priceable. */
  lemma SchemaValidIsPriceable(p: Product)
    requires ProductModel.SchemaValid(p)
    ensures Priceable(p)
  {
  }

  lemma MulNonNeg(a: real, b: real)
    requires a >= 0.0 && b >= 0.0
    ensures a * b >= 0.0
  {
  }

  /** Each term lies between zero and the entry's price. */
  lemma TermBounds(p: Product)
    requires Priceable(p)
    ensures 0.0 <= Term(p) <= p.price
  {
    var d := p.discount / 100.0;
    assert 0.0 <= d <= 1.0;
    assert Term(p) == p.price - p.price * d;
    MulNonNeg(p.price, d);
    MulNonNeg(p.price, 1.0 - d);
  }

  /** With valid catalog data the subtotal lies between zero and the sum of the prices. */
  lemma {:induction false} SubtotalBounds(ps: seq<Product>)
    requires forall i :: 0 <= i < |ps| ==> Priceable(ps[i])
    ensures 0.0 <= Subtotal(ps) <= PriceSum(ps)
    decreases |ps|
  {
    if |ps| > 0 {
      SubtotalBounds(ps[..|ps| - 1]);
      TermBounds(ps[|ps| - 1]);
    }
  }

  // ---------------------------------------------------------------- coupons

  /** A coupon re-prices a product while unexpired and of the product's store. */
  predicate Applies(c: Coupon, p: Product, now: int) {
    now <= c.expiration && p.store == c.store
  }

  /** The price after one coupon: a percentage multiplies, a flat amount
      subtracts and floors at zero. */
  function CouponPrice(price: real, c: Coupon): real {
    if c.percentage then price * (1.0 - c.value / 100.0)
    else if price - c.value <= 0.0 then 0.0
    else price - c.value
  }

  function Reprice(p: Product, c: Coupon, now: int): Product {
    if Applies(c, p, now) then p.(price := CouponPrice(p.price, c)) else p
  }

  /** One coupon's pass over every product. */
  function ApplyCoupon(ps: seq<Product>, c: Coupon, now: int): (r: seq<Product>)
    ensures |r| == |ps|
    ensures forall i :: 0 <= i < |ps| ==> r[i] == Reprice(ps[i], c, now)
  {
    seq(|ps|, i requires 0 <= i < |ps| => Reprice(ps[i], c, now))
  }

  /** Every coupon's pass, in list order: each pass sees the prices the
      previous passes left. Only prices change, and a product that no coupon
      applies to keeps its price. */
  function ApplyAll(ps: seq<Product>, cs: seq<Coupon>, now: int): (r: seq<Product>)
    ensures |r| == |ps|
    ensures forall i :: 0 <= i < |ps| ==> r[i] == ps[i].(price := r[i].price)
    ensures forall i :: 0 <= i < |ps| && (forall k :: 0 <= k < |cs| ==> !Applies(cs[k], ps[i], now)) ==>
              r[i] == ps[i]
    decreases |cs|
  {
    if |cs| == 0 then ps
    else ApplyCoupon(ApplyAll(ps, cs[..|cs| - 1], now), cs[|cs| - 1], now)
  }

  /** What `applyCoupons` returns (`total`) together with the re-priced copies. */
  datatype Priced = Priced(total: real, products: seq<Product>)

  /** `applyCoupons`: with no coupons the supplied subtotal comes back and
      nothing is re-priced; otherwise the total is the subtotal of the
      re-priced copies, so the catalog discount applies after the coupons. */
  function ApplyCoupons(cs: seq<Coupon>, ps: seq<Product>, subtotal: real, now: int): (r: Priced)
    ensures |r.products| == |ps|
    ensures |cs| == 0 ==> r.total == subtotal && r.products == ps
    ensures |cs| > 0 ==> r.total == Subtotal(r.products)
  {
    if |cs| == 0 then Priced(subtotal, ps)
    else var q := ApplyAll(ps, cs, now); Priced(Subtotal(q), q)
  }

  /** The loops of `applyCoupons`, re-pricing a local copy in place. */
  method ApplyCouponsLoop(coupons: seq<Coupon>, products: seq<Product>, subtotal: real, now: int)
    returns (total: real, repriced: seq<Product>)
    ensures Priced(total, repriced) == ApplyCoupons(coupons, products, subtotal, now)
  {
    if |coupons| == 0 {
      return subtotal, products;
    }
    repriced := products;
    var k := 0;
    while k < |coupons|
      invariant 0 <= k <= |coupons|
      invariant repriced == ApplyAll(products, coupons[..k], now)
    {
      var before := repriced;
      var j := 0;
      while j < |repriced|
        invariant 0 <= j <= |repriced| == |before|
        invariant forall i :: 0 <= i < j ==> repriced[i] == Reprice(before[i], coupons[k], now)
        invariant forall i :: j <= i < |repriced| ==> repriced[i] == before[i]
      {
        repriced := repriced[j := Reprice(repriced[j], coupons[k], now)];
        j := j + 1;
      }
      assert coupons[..k + 1][..k] == coupons[..k];
      assert repriced == ApplyCoupon(before, coupons[k], now);
      k := k + 1;
    }
    assert coupons[..k] == coupons;
    total := GetSubtotal(repriced);
  }

  // ---------------------------------------------------------------- coupon properties

  /** A coupon the schema and the create clamp admit: a non-negative value, at
      most 100 when it is a percentage. */
  predicate Sane(c: Coupon) {
    c.value >= 0.0 && (c.percentage ==> c.value <= 100.0)
  }

  /** A flat coupon floors at zero: the new price is max(0, price - value). */
  lemma FlatCouponFloors(price: real, c: Coupon)
    requires !c.percentage
    ensures CouponPrice(price, c) >= 0.0
    ensures CouponPrice(price, c) == (if price - c.value > 0.0 then price - c.value else 0.0)
  {
  }

  /** A sane coupon never raises a price and never makes it negative. */
  lemma CouponPriceBounds(price: real, c: Coupon)
    requires price >= 0.0 && Sane(c)
    ensures 0.0 <= CouponPrice(price, c) <= price
  {
    if c.percentage {
      var f := 1.0 - c.value / 100.0;
      assert 0.0 <= f <= 1.0;
      assert price * f == price - price * (c.value / 100.0);
      MulNonNeg(price, c.value / 100.0);
      MulNonNeg(price, f);
    }
  }

  /** An expired coupon re-prices nothing. */
  lemma ExpiredCouponIsInert(ps: seq<Product>, c: Coupon, now: int)
    requires now > c.expiration
    ensures ApplyCoupon(ps, c, now) == ps
  {
  }

  /** Coupons compound: two percentage coupons of the product's store, both
      unexpired, multiply their factors (two 50% coupons leave a quarter). */
  lemma CouponsCompound(p: Product, c1: Coupon, c2: Coupon, now: int)
    requires c1.percentage && c2.percentage && Applies(c1, p, now) && Applies(c2, p, now)
    ensures ApplyAll([p], [c1, c2], now)[0].price
            == p.price * (1.0 - c1.value / 100.0) * (1.0 - c2.value / 100.0)
    ensures c1.value == 50.0 && c2.value == 50.0 ==> ApplyAll([p], [c1, c2], now)[0].price == p.price / 4.0
  {
  }

  /** With sane coupons and non-negative prices, every re-priced copy lies
      between zero and its original price. */
  lemma {:induction false} ApplyAllBounds(ps: seq<Product>, cs: seq<Coupon>, now: int)
    requires forall i :: 0 <= i < |ps| ==> ps[i].price >= 0.0
    requires forall k :: 0 <= k < |cs| ==> Sane(cs[k])
    ensures forall i :: 0 <= i < |ps| ==> 0.0 <= ApplyAll(ps, cs, now)[i].price <= ps[i].price
    decreases |cs|
  {
    if |cs| > 0 {
      var cs' := cs[..|cs| - 1];
      var c := cs[|cs| - 1];
      ApplyAllBounds(ps, cs', now);
      var q := ApplyAll(ps, cs', now);
      forall i | 0 <= i < |ps|
        ensures 0.0 <= ApplyAll(ps, cs, now)[i].price <= ps[i].price
      {
        CouponPriceBounds(q[i].price, c);
      }
    }
  }

  /** Lowering prices, discounts fixed, lowers the subtotal. */
  lemma {:induction false} SubtotalMonotone(a: seq<Product>, b: seq<Product>)
    requires |a| == |b|
    requires forall i :: 0 <= i < |a| ==> a[i].discount == b[i].discount && ValidDiscount(a[i].discount)
    requires forall i :: 0 <= i < |a| ==> a[i].price <= b[i].price
    ensures Subtotal(a) <= Subtotal(b)
    decreases |a|
  {
    if |a| > 0 {
      var n := |a| - 1;
      SubtotalMonotone(a[..n], b[..n]);
      var f := 1.0 - a[n].discount / 100.0;
      assert f >= 0.0;
      assert a[n].price * f <= b[n].price * f;
    }
  }

  /** The order total never exceeds the subtotal and never drops below zero,
      whenever the catalog data and the coupons are valid. */
  lemma TotalWithinSubtotal(cs: seq<Coupon>, ps: seq<Product>, now: int)
    requires forall i :: 0 <= i < |ps| ==> Priceable(ps[i])
    requires forall k :: 0 <= k < |cs| ==> Sane(cs[k])
    ensures 0.0 <= ApplyCoupons(cs, ps, Subtotal(ps), now).total <= Subtotal(ps)
  {
    var r := ApplyCoupons(cs, ps, Subtotal(ps), now);
    SubtotalBounds(ps);
    if |cs| > 0 {
      ApplyAllBounds(ps, cs, now);
      var q := r.products;
      SubtotalMonotone(q, ps);
      assert forall i :: 0 <= i < |q| ==> Priceable(q[i]);
      SubtotalBounds(q);
    }
  }

  /** A product no coupon's store matches keeps its price, so the total only
      moves by the re-priced entries. */
  lemma OtherStoresUntouched(ps: seq<Product>, cs: seq<Coupon>, now: int, i: int)
    requires 0 <= i < |ps|
    requires forall k :: 0 <= k < |cs| ==> cs[k].store != ps[i].store
    ensures ApplyAll(ps, cs, now)[i] == ps[i]
  {
  }

  /** Coupons of a store no product belongs to leave the total at the subtotal. */
  lemma ForeignCouponsKeepSubtotal(ps: seq<Product>, cs: seq<Coupon>, now: int)
    requires forall i, k :: 0 <= i < |ps| && 0 <= k < |cs| ==> cs[k].store != ps[i].store
    ensures ApplyCoupons(cs, ps, Subtotal(ps), now).total == Subtotal(ps)
  {
  }

  /** The worked example: a 20% coupon of store 1 on a 100 product of store 1
      and a 50 product of store 2 gives subtotal 150 and total 130. */
  lemma TwoStoreExample(p1: Product, p2: Product, c: Coupon, now: int)
    requires p1.price == 100.0 && p1.discount == 0.0 && p1.store == 1
    requires p2.price == 50.0 && p2.discount == 0.0 && p2.store == 2
    requires c.percentage && c.value == 20.0 && c.store == 1 && now <= c.expiration
    ensures Subtotal([p1, p2]) == 150.0
    ensures ApplyCoupons([c], [p1, p2], 150.0, now).total == 130.0
  {
    assert [p1, p2][..1] == [p1];
    assert [p1][..0] == [];
    assert Term(p1) == 100.0 && Term(p2) == 50.0;
    assert Subtotal([p1]) == 100.0;
    assert [c][..0] == [];
    var q := ApplyAll([p1, p2], [c], now);
    assert q[0].price == 80.0 && q[1] == p2;
    assert q[..1] == [q[0]];
    assert q[..1][..0] == [];
    assert Subtotal(q[..1]) == 80.0;
  }
}

/** `applyCoupons` exactly as written compares stores with `===`. Store fields
    of documents loaded without `populate` are ObjectId objects, and `===`
    between two objects is object identity, which two separately loaded
    documents never share. */
module FunctionsAsWritten {
  import opened Collection
  import opened ProductModel
  import opened CouponModel
  import Functions

  /** The document an ObjectId object was read from. */
  datatype Owner = ProductDoc(productId: Id) | CouponDoc(couponId: Id)

  /** An ObjectId object: its owning document and its value. */
  datatype ObjectIdRef = ObjectIdRef(owner: Owner, value: Id)

  function ProductStore(p: Product): ObjectIdRef { ObjectIdRef(ProductDoc(p.id), p.store) }
  function CouponStore(c: Coupon): ObjectIdRef { ObjectIdRef(CouponDoc(c.id), c.store) }

  /** The eligibility test as written: unexpired and the same store object. */
  predicate AppliesAsWritten(c: Coupon, p: Product, now: int) {
    now <= c.expiration && ProductStore(p) == CouponStore(c)
  }

  function RepriceAsWritten(p: Product, c: Coupon, now: int): Product {
    if AppliesAsWritten(c, p, now) then p.(price := Functions.CouponPrice(p.price, c)) else p
  }

  function ApplyAllAsWritten(ps: seq<Product>, cs: seq<Coupon>, now: int): (r: seq<Product>)
    ensures |r| == |ps|
    decreases |cs|
  {
    if |cs| == 0 then ps
    else
      var q := ApplyAllAsWritten(ps, cs[..|cs| - 1], now);
      seq(|q|, i requires 0 <= i < |q| => RepriceAsWritten(q[i], cs[|cs| - 1], now))
  }

  /** As written, no coupon ever re-prices anything: the order total always
      equals the subtotal, whatever coupons are supplied. */
  lemma {:induction false} AsWrittenCouponsNeverApply(ps: seq<Product>, cs: seq<Coupon>, now: int)
    ensures ApplyAllAsWritten(ps, cs, now) == ps
    ensures Functions.Subtotal(ApplyAllAsWritten(ps, cs, now)) == Functions.Subtotal(ps)
    decreases |cs|
  {
    if |cs| > 0 {
      AsWrittenCouponsNeverApply(ps, cs[..|cs| - 1], now);
      var q := ApplyAllAsWritten(ps, cs, now);
      forall i | 0 <= i < |ps|
        ensures q[i] == ps[i]
      {
        assert !AppliesAsWritten(cs[|cs| - 1], ps[i], now);
      }
    }
  }

  /** The input that shows it: a 20% coupon of the product's own store, not
      expired, leaves a price of 100 at 100 as written; the value comparison
      the rest of the model uses gives 80. */
  lemma SameStoreCouponIgnored(p: Product, c: Coupon, now: int)
    requires p.price == 100.0 && p.store == c.store
    requires c.percentage && c.value == 20.0 && now <= c.expiration
    ensures ApplyAllAsWritten([p], [c], now)[0].price == 100.0
    ensures Functions.ApplyAll([p], [c], now)[0].price == 80.0
  {
  }
}

=== FILE: messages.dfy ===
/** Route outcomes. Each failure carries the message key the route answers with
    (api/utils/messages.js); `ValidationFailed` stands for a schema validator
    rejecting a save, `StorageError` for a failed database call, and
    `RuntimeError` for an exception the route's own code raises (a call to a
    name that is not a function) and answers with the error it caught. */
module Messages {

  datatype Reason =
    | UserNotFound | UserLacksStore
    | CategoryExists | CategoryNotFound | CategoryAlreadyDisabled
    | ProductExists | ProductNotFound | ProductUpdateFailed | ProductAlreadyDisabled
    | StoreUnauthorized | StoreUserAlreadyExists | StoreExists | StoreNotFound
    | StoreUpdateFailed | StoreAlreadyDisabled
    | CouponExists | CouponNotFound | CouponUpdateFailed | CouponAlreadyDisabled
    | OrdersEmpty | OrderNotFound | OrdersUpdateFailed | OrderAlreadyDisabled
    | AdminStoresAlreadyEnabled | AdminStoresAlreadyDisabled
    | ValidationFailed | StorageError | RuntimeError

  datatype Outcome = Ok | Fail(reason: Reason)
}

/** Which calls to the database fail, for operations that issue several in turn. */
module Faults {
  datatype Faults = Faults(lookup: bool, productWrite: bool, couponWrite: bool)

  const NoFaults: Faults := Faults(false, false, false)
}

=== FILE: order_model.dfy ===
/** The Order document (api/models/Order.model.js). */
module OrderModel {
  import opened Collection
  import Constants

  datatype Status = Pending | Processing | Complete | Failed

  /** The status strings the route accepts, in schema order. */
  function StatusName(s: Status): string {
    match s
    case Pending => "PENDING"
    case Processing => "PROCESSING"
    case Complete => "COMPLETE"
    case Failed => "FAILED"
  }

  /** The `isIn` check on a status string: only the four enum names parse. */
  function ParseStatus(text: string): (r: Option<Status>)
    ensures r.Some? ==> StatusName(r.value) == text
  {
    if text == "PENDING" then Some(Pending)
    else if text == "PROCESSING" then Some(Processing)
    else if text == "COMPLETE" then Some(Complete)
    else if text == "FAILED" then Some(Failed)
    else None
  }

  /** Every status name parses back to its status. */
  lemma ParseStatusName(s: Status)
    ensures ParseStatus(StatusName(s)) == Some(s)
  {
  }

  const DefaultStatus: Status := Pending

  datatype Order = Order(
    id: Id,
    products: seq<Id>,
    coupons: seq<Id>,
    subtotal: real,
    total: real,
    user: Id,
    status: Status,
    active: bool,
    enabled: bool)

  datatype Field = Products | Coupons | Subtotal | Total | User | StatusField | Active | Enabled

  const Fillable: set<Field> := {Products, Coupons}
  const Updatable: set<Field> := {StatusField}

  /** `subtotal` and `total` lie in [minDiscount, maxPrice * maxPrice]. */
  predicate ValidAmount(x: real) {
    Constants.MinDiscount <= x <= Constants.MaxPrice * Constants.MaxPrice
  }

  /** A new order: status PENDING, active and enabled. */
  function New(id: Id, products: seq<Id>, coupons: seq<Id>, subtotal: real, total: real, user: Id): (o: Order)
    ensures o.id == id && o.user == user && o.products == products && o.coupons == coupons
    ensures o.subtotal == subtotal && o.total == total
    ensures o.status == Pending && o.active && o.enabled
  {
    Order(id, products, coupons, subtotal, total, user, DefaultStatus, true, true)
  }

  /** The only updatable field is the status; no other field a client names is writable. */
  lemma OnlyStatusUpdatable(f: Field)
    ensures f in Updatable <==> f == StatusField
    ensures f in Fillable <==> f == Products || f == Coupons
  {
  }
}

=== FILE: orders_route.dfy ===
/** The order routes (api/routes/orders.route.js): create, status update, delete. */
module OrdersRoute {
  import opened Collection
  import opened Messages
  import opened OrderModel
  import ProductModel
  import CouponModel
  import Functions

  /** A POST body as received, its product and coupon ids already resolved to
      records; it may also carry fields a client is not allowed to set. */
  datatype OrderRequest = OrderRequest(
    products: seq<ProductModel.Product>,
    coupons: seq<CouponModel.Coupon>,
    user: Option<Id>,
    subtotal: Option<real>,
    total: Option<real>,
    status: Option<Status>,
    active: Option<bool>,
    enabled: Option<bool>)

  /** A collection after a route ran, and what the route answered. */
  datatype Reply = Reply(orders: seq<Order>, outcome: Outcome)

  /** The references an order stores: the id of each resolved document, in order. */
  function Refs<T>(docs: seq<T>, id: T -> Id): (r: seq<Id>)
    ensures |r| == |docs| && forall i :: 0 <= i < |docs| ==> r[i] == id(docs[i])
  {
    seq(|docs|, i requires 0 <= i < |docs| => id(docs[i]))
  }

  function ProductId(p: ProductModel.Product): Id { p.id }
  function CouponId(c: CouponModel.Coupon): Id { c.id }

  /** The order's total: the coupon step when coupons were sent, otherwise
      the subtotal of the products. */
  function OrderTotal(req: OrderRequest, subtotal: real, now: int): real {
    if |req.coupons| == 0 then Functions.Subtotal(req.products)
    else Functions.ApplyCoupons(req.coupons, req.products, subtotal, now).total
  }

  /** POST /orders. An empty product list is refused before anything else; the
      subtotal is taken from the resolved products before the coupon step;
      `user`, `subtotal` and `total` come from the server alone; the save
      fails when an amount leaves the schema's bounds. */
  function Create(orders: seq<Order>, caller: Id, req: OrderRequest, now: int, newId: Id): (r: Reply)
    ensures |req.products| == 0 ==> r == Reply(orders, Fail(OrdersEmpty))
    ensures r.outcome.Fail? ==> r.orders == orders
    ensures r.outcome.Ok? ==>
              && |req.products| > 0
              && |r.orders| == |orders| + 1 && r.orders[..|orders|] == orders
              && var o := r.orders[|orders|];
                 && o.id == newId && o.user == caller
                 && o.products == Refs(req.products, ProductId) && o.coupons == Refs(req.coupons, CouponId)
                 && o.subtotal == Functions.Subtotal(req.products)
                 && o.total == OrderTotal(req, o.subtotal, now)
                 && o.status == Pending && o.active && o.enabled
                 && ValidAmount(o.subtotal) && ValidAmount(o.total)
    ensures |req.products| > 0 && r.outcome.Fail? ==> r.outcome.reason == ValidationFailed
    ensures |req.products| > 0 && ValidAmount(Functions.Subtotal(req.products))
              && ValidAmount(OrderTotal(req, Functions.Subtotal(req.products), now)) ==>
              r.outcome.Ok?
  {
    if |req.products| == 0 then Reply(orders, Fail(OrdersEmpty))
    else
      var subtotal := Functions.Subtotal(req.products);
      var total := OrderTotal(req, subtotal, now);
      if !ValidAmount(subtotal) || !ValidAmount(total) then Reply(orders, Fail(ValidationFailed))
      else
        var o := New(newId, Refs(req.products, ProductId), Refs(req.coupons, CouponId), subtotal, total, caller);
        Reply(orders + [o], Ok)
  }

  /** Only `products` and `coupons` of the body matter: whatever user, amounts,
      status or flags a client sends, the created order is the same. */
  lemma CreateIgnoresUnfillable(orders: seq<Order>, caller: Id, req: OrderRequest, now: int, newId: Id,
                                u: Option<Id>, s: Option<real>, t: Option<real>, st: Option<Status>,
                                a: Option<bool>, e: Option<bool>)
    ensures Create(orders, caller, req, now, newId)
            == Create(orders, caller, OrderRequest(req.products, req.coupons, u, s, t, st, a, e), now, newId)
  {
  }

  /** With valid catalog data and sane coupons, a created order's total lies
      between zero and its subtotal. */
  lemma CreatedTotalWithinSubtotal(orders: seq<Order>, caller: Id, req: OrderRequest, now: int, newId: Id)
    requires forall i :: 0 <= i < |req.products| ==> Functions.Priceable(req.products[i])
    requires forall k :: 0 <= k < |req.coupons| ==> Functions.Sane(req.coupons[k])
    requires Create(orders, caller, req, now, newId).outcome.Ok?
    ensures var o := Create(orders, caller, req, now, newId).orders[|orders|];
            0.0 <= o.total <= o.subtotal
  {
    Functions.TotalWithinSubtotal(req.coupons, req.products, now);
    Functions.SubtotalBounds(req.products);
  }

  /** The filter every update and delete uses: that order, the caller's, live. */
  predicate Owned(o: Order, id: Id, caller: Id) {
    o.id == id && o.user == caller && o.active && o.enabled
  }

  function FirstOwned(orders: seq<Order>, id: Id, caller: Id): Option<nat> {
    FirstIndex(orders, (o: Order) => Owned(o, id, caller))
  }

  /** PUT /orders/:id. The status text must name one of the four statuses;
      any status may replace any other. The update touches only the caller's
      live order with that id and fails when it modified nothing, which
      includes setting the status the order already has. */
  function UpdateStatus(orders: seq<Order>, caller: Id, id: Id, statusText: string): (r: Reply)
    ensures ParseStatus(statusText).None? ==> r == Reply(orders, Fail(ValidationFailed))
    ensures r.outcome.Fail? ==> r.orders == orders
    ensures r.outcome.Ok? <==>
              && ParseStatus(statusText).Some?
              && FirstOwned(orders, id, caller).Some?
              && orders[FirstOwned(orders, id, caller).value].status != ParseStatus(statusText).value
    ensures r.outcome.Ok? ==>
              var i := FirstOwned(orders, id, caller).value;
              r.orders == orders[i := orders[i].(status := ParseStatus(statusText).value)]
    ensures ParseStatus(statusText).Some? && r.outcome.Fail? ==> r.outcome.reason == OrdersUpdateFailed
  {
    match ParseStatus(statusText)
    case None => Reply(orders, Fail(ValidationFailed))
    case Some(st) =>
      var u := UpdateOne(orders, (o: Order) => Owned(o, id, caller), (o: Order) => o.(status := st));
      if !u.modified then Reply(orders, Fail(OrdersUpdateFailed)) else Reply(u.records, Ok)
  }

  /** Statuses are not ordered: a COMPLETE order can go back to PENDING. */
  lemma CompleteCanReturnToPending(orders: seq<Order>, caller: Id, id: Id)
    requires FirstOwned(orders, id, caller).Some?
    requires orders[FirstOwned(orders, id, caller).value].status == Complete
    ensures UpdateStatus(orders, caller, id, "PENDING").outcome == Ok
  {
  }

  /** What deleting does to an order: it becomes inactive, and it becomes
      FAILED unless it was COMPLETE. */
  function Retire(o: Order): (r: Order)
    ensures !r.active
    ensures r.status == (if o.status == Complete then Complete else Failed)
    ensures r == o.(active := false, status := r.status)
  {
    if o.status != Complete then o.(active := false, status := Failed) else o.(active := false)
  }

  /** DELETE /orders/:id. Only the caller's live order with that id is found;
      otherwise the answer is `orderNotFound` and nothing changes. */
  function Delete(orders: seq<Order>, caller: Id, id: Id): (r: Reply)
    ensures FirstOwned(orders, id, caller).None? ==> r == Reply(orders, Fail(OrderNotFound))
    ensures FirstOwned(orders, id, caller).Some? ==>
              var i := FirstOwned(orders, id, caller).value;
              r == Reply(orders[i := Retire(orders[i])], Ok)
  {
    match FindOne(orders, (o: Order) => Owned(o, id, caller))
    case None => Reply(orders, Fail(OrderNotFound))
    case Some(found) =>
      var u := UpdateOne(orders, (o: Order) => Owned(o, id, caller), Retire);
      if !u.modified then Reply(orders, Fail(OrderAlreadyDisabled)) else Reply(u.records, Ok)
  }

  function OrderId(o: Order): Id { o.id }

  /** With distinct order ids, a second delete of the same order reports
      `orderNotFound` and changes nothing. */
  lemma DeleteTwiceIsReportedNoOp(orders: seq<Order>, caller: Id, id: Id)
    requires UniqueBy(orders, OrderId)
    requires Delete(orders, caller, id).outcome.Ok?
    ensures var once := Delete(orders, caller, id).orders;
            Delete(once, caller, id) == Reply(once, Fail(OrderNotFound))
  {
  }
}

/** POST /orders as written (api/routes/orders.route.js:59-75). The utilities
    module exports no `getTotal`, so an order without coupons raises an
    exception before anything is saved; with coupons, the coupon step returns
    a number whose `total` property does not exist, so the order is saved
    with the schema's default total of 0. */
module OrdersRouteAsWritten {
  import opened Collection
  import opened Messages
  import opened OrderModel
  import Functions
  import OrdersRoute

  function CreateAsWritten(orders: seq<Order>, caller: Id, req: OrdersRoute.OrderRequest, now: int, newId: Id): (r: OrdersRoute.Reply)
    ensures r.outcome.Fail? ==> r.orders == orders
    ensures |req.products| > 0 && |req.coupons| == 0 ==> r.outcome == Fail(RuntimeError)
    ensures r.outcome.Ok? ==>
              && |req.coupons| > 0
              && |r.orders| == |orders| + 1 && r.orders[..|orders|] == orders
              && r.orders[|orders|].subtotal == Functions.Subtotal(req.products)
              && r.orders[|orders|].total == 0.0
  {
    if |req.products| == 0 then OrdersRoute.Reply(orders, Fail(OrdersEmpty))
    else if |req.coupons| == 0 then OrdersRoute.Reply(orders, Fail(RuntimeError))
    else
      var subtotal := Functions.Subtotal(req.products);
      if !ValidAmount(subtotal) then OrdersRoute.Reply(orders, Fail(ValidationFailed))
      else
        var o := New(newId, OrdersRoute.Refs(req.products, OrdersRoute.ProductId),
                     OrdersRoute.Refs(req.coupons, OrdersRoute.CouponId), subtotal, 0.0, caller);
        OrdersRoute.Reply(orders + [o], Ok)
  }

  /** The input that shows the first defect: any order without coupons whose
      amounts are valid is refused as written and created once the subtotal
      stands in for the missing total. */
  lemma OrderWithoutCouponsRefused(orders: seq<Order>, caller: Id, req: OrdersRoute.OrderRequest, now: int, newId: Id)
    requires |req.products| > 0 && |req.coupons| == 0
    requires ValidAmount(Functions.Subtotal(req.products))
    ensures CreateAsWritten(orders, caller, req, now, newId) == OrdersRoute.Reply(orders, Fail(RuntimeError))
    ensures OrdersRoute.Create(orders, caller, req, now, newId).outcome == Ok
  {
  }

  /** The input that shows the second defect: an order with coupons whose
      discounted total is not zero is saved with total 0 as written, and with
      that total once the coupon step's number is used. */
  lemma CouponOrderTotalLost(orders: seq<Order>, caller: Id, req: OrdersRoute.OrderRequest, now: int, newId: Id)
    requires |req.products| > 0 && |req.coupons| > 0
    requires var sub := Functions.Subtotal(req.products);
             ValidAmount(sub) && ValidAmount(OrdersRoute.OrderTotal(req, sub, now))
             && OrdersRoute.OrderTotal(req, sub, now) != 0.0
    ensures var w := CreateAsWritten(orders, caller, req, now, newId);
            var fixed := OrdersRoute.Create(orders, caller, req, now, newId);
            && w.outcome == Ok && fixed.outcome == Ok
            && w.orders[|orders|].total == 0.0
            && fixed.orders[|orders|].total == OrdersRoute.OrderTotal(req, Functions.Subtotal(req.products), now)
            && w.orders[|orders|] != fixed.orders[|orders|]
  {
  }
}

=== FILE: product_model.dfy ===
/** The Product document (api/models/Product.model.js). */
module ProductModel {
  import opened Collection
  import Constants

  datatype Product = Product(
    id: Id,
    name: string,
    description: Option<string>,
    shortDescription: Option<string>,
    price: real,
    discount: real,
    images: Option<seq<string>>,
    tags: Option<seq<string>>,
    store: Id,
    category: Id,
    active: bool,
    enabled: bool)

  /** The body a client may send; every field optional, including ones it may not set. */
  datatype ProductBody = ProductBody(
    name: Option<string>,
    description: Option<string>,
    shortDescription: Option<string>,
    price: Option<real>,
    discount: Option<real>,
    images: Option<seq<string>>,
    tags: Option<seq<string>>,
    store: Option<Id>,
    category: Option<Id>,
    active: Option<bool>,
    enabled: Option<bool>)

  datatype Field =
    | Name | Description | ShortDescription | Price | Discount
    | Images | Tags | Store | Category | Active | Enabled

  const Fillable: set<Field> :=
    {Name, Description, ShortDescription, Price, Discount, Images, Tags, Store, Category}

  const Updatable: set<Field> :=
    {Name, Description, ShortDescription, Price, Discount, Images, Tags, Category}

  function Keep<T>(f: Field, fields: set<Field>, v: Option<T>): Option<T> {
    if f in fields then v else None
  }

  /** `_.pick(body, fields)`: drop every field outside `fields`. */
  function Pick(b: ProductBody, fields: set<Field>): (r: ProductBody)
    ensures Store !in fields ==> r.store.None?
    ensures Active !in fields ==> r.active.None?
    ensures Enabled !in fields ==> r.enabled.None?
    ensures Price in fields ==> r.price == b.price
    ensures Name in fields ==> r.name == b.name
    ensures Description in fields ==> r.description == b.description
    ensures ShortDescription in fields ==> r.shortDescription == b.shortDescription
    ensures Discount in fields ==> r.discount == b.discount
    ensures Images in fields ==> r.images == b.images
    ensures Tags in fields ==> r.tags == b.tags
    ensures Category in fields ==> r.category == b.category
    ensures Store in fields ==> r.store == b.store
  {
    ProductBody(
      Keep(Name, fields, b.name), Keep(Description, fields, b.description),
      Keep(ShortDescription, fields, b.shortDescription), Keep(Price, fields, b.price),
      Keep(Discount, fields, b.discount), Keep(Images, fields, b.images),
      Keep(Tags, fields, b.tags), Keep(Store, fields, b.store),
      Keep(Category, fields, b.category), Keep(Active, fields, b.active),
      Keep(Enabled, fields, b.enabled))
  }

  predicate ValidPrice(price: real) {
    Constants.MinPrice <= price <= Constants.MaxPrice
  }

  predicate ValidDiscount(discount: real) {
    Constants.MinDiscount <= discount <= Constants.MaxDiscount
  }

  /** The schema's validators: a name of at least three characters, a bounded price and discount. */
  predicate SchemaValid(p: Product) {
    |p.name| >= 3 && ValidPrice(p.price) && ValidDiscount(p.discount)
  }

  /** A new document built from a body; absent fields take the schema defaults
      (`discount` 0, optional texts and arrays null, `active` true). The schema
      declares no `enabled`; a new product is taken to be enabled. */
  function New(id: Id, b: ProductBody, name: string, price: real, store: Id, category: Id): (p: Product)
    ensures p.id == id && p.store == store && p.price == price && p.name == name
    ensures p.discount == b.discount.GetOr(0.0)
    ensures p.active && p.enabled
    ensures b.tags.None? ==> p.tags.None?
  {
    Product(id, name, b.description, b.shortDescription, price, b.discount.GetOr(0.0),
            b.images, b.tags, store, category, true, true)
  }

  /** Write every field present in the body, as an update does. */
  function Patch(p: Product, b: ProductBody): (r: Product)
    ensures r.id == p.id
    ensures b.store.None? ==> r.store == p.store
    ensures b.active.None? && b.enabled.None? ==> r.active == p.active && r.enabled == p.enabled
    ensures Written(b.name, p.name, r.name) && Written(b.price, p.price, r.price)
    ensures Written(b.discount, p.discount, r.discount) && Written(b.category, p.category, r.category)
    ensures Written(b.store, p.store, r.store)
    ensures WrittenOpt(b.description, p.description, r.description)
    ensures WrittenOpt(b.shortDescription, p.shortDescription, r.shortDescription)
    ensures WrittenOpt(b.images, p.images, r.images) && WrittenOpt(b.tags, p.tags, r.tags)
  {
    Product(
      p.id, b.name.GetOr(p.name), Either(b.description, p.description),
      Either(b.shortDescription, p.shortDescription), b.price.GetOr(p.price),
      b.discount.GetOr(p.discount), Either(b.images, p.images), Either(b.tags, p.tags),
      b.store.GetOr(p.store), b.category.GetOr(p.category),
      b.active.GetOr(p.active), b.enabled.GetOr(p.enabled))
  }

  /** The update validators (`runValidators`) check every field the update writes. */
  predicate PatchValid(b: ProductBody) {
    && (b.name.Some? ==> |b.name.value| >= 3)
    && (b.price.Some? ==> ValidPrice(b.price.value))
    && (b.discount.Some? ==> ValidDiscount(b.discount.value))
  }

  /** An update can never move a product to another store nor touch its flags. */
  lemma UpdatableKeepsOwnerAndFlags(p: Product, b: ProductBody)
    ensures Patch(p, Pick(b, Updatable)).store == p.store
    ensures Patch(p, Pick(b, Updatable)).active == p.active
    ensures Patch(p, Pick(b, Updatable)).enabled == p.enabled
  {
  }

  /** A valid product stays valid under a patch the validators accept. */
  lemma PatchPreservesSchema(p: Product, b: ProductBody)
    requires SchemaValid(p) && PatchValid(b)
    ensures SchemaValid(Patch(p, b))
  {
  }
}

=== FILE: products_route.dfy ===
/** The product routes (api/routes/products.route.js): public listing and
    lookup, and the store-scoped create, update and delete. */
module ProductsRoute {
  import opened Collection
  import opened Messages
  import opened ProductModel
  import StoreModel
  import Regex

  datatype Reply = Reply(products: seq<Product>, outcome: Outcome)

  /** The guard of every write: the caller has a store and it has been approved. */
  function Guard(callerStore: Option<StoreModel.Store>): (r: Option<Reason>)
    ensures r.None? <==> callerStore.Some? && callerStore.value.enabled
  {
    if callerStore.None? then Some(UserLacksStore)
    else if !callerStore.value.enabled then Some(StoreUnauthorized)
    else None
  }

  /** What public queries show: active and enabled. */
  predicate Visible(p: Product) { p.active && p.enabled }

  /** A product a store may act on: its own, and visible. */
  predicate Live(p: Product, store: Id) { p.store == store && Visible(p) }

  predicate NameTaken(products: seq<Product>, store: Id, name: string) {
    exists j :: 0 <= j < |products| && Live(products[j], store) && products[j].name == name
  }

  /** GET /products: the visible products, in order. */
  function List(products: seq<Product>): (r: seq<Product>)
    ensures forall i :: 0 <= i < |r| ==> Visible(r[i]) && r[i] in products
    ensures forall j :: 0 <= j < |products| && Visible(products[j]) ==> products[j] in r
  {
    Find(products, Visible)
  }

  /** GET /products/:id: the first visible product with that id. */
  function Lookup(products: seq<Product>, id: Id): (r: Option<Product>)
    ensures r.Some? ==> r.value.id == id && Visible(r.value) && r.value in products
    ensures r.None? <==> forall j :: 0 <= j < |products| ==> !(products[j].id == id && Visible(products[j]))
  {
    FindOne(products, (p: Product) => p.id == id && Visible(p))
  }

  /** The validators on a create body. */
  predicate ValidCreateBody(b: ProductBody) {
    && b.name.Some? && Regex.ProductName(b.name.value)
    && b.price.Some? && ValidPrice(b.price.value)
    && (b.discount.Some? ==> ValidDiscount(b.discount.value))
    && b.category.Some?
  }

  /** POST /products. A caller without a store is refused first, then an
      invalid body, then a store not yet approved; a name used by a live
      product of the same store is refused; the schema refuses a name shorter
      than three characters. The new product belongs to the caller's store,
      whatever store the body names. */
  function Create(products: seq<Product>, callerStore: Option<StoreModel.Store>, body: ProductBody, newId: Id): (r: Reply)
    ensures r.outcome.Fail? ==> r.products == products
    ensures callerStore.None? ==> r == Reply(products, Fail(UserLacksStore))
    ensures callerStore.Some? && !ValidCreateBody(body) ==> r == Reply(products, Fail(ValidationFailed))
    ensures ValidCreateBody(body) && Guard(callerStore).Some? ==> r == Reply(products, Fail(Guard(callerStore).value))
    ensures ValidCreateBody(body) && Guard(callerStore).None? ==>
              (r.outcome == Fail(ProductExists) <==> NameTaken(products, callerStore.value.id, body.name.value))
    ensures r.outcome.Ok? ==>
              && ValidCreateBody(body) && Guard(callerStore).None?
              && |r.products| == |products| + 1 && r.products[..|products|] == products
              && var p := r.products[|products|];
                 && p.id == newId && p.store == callerStore.value.id && p.name == body.name.value
                 && p.discount == body.discount.GetOr(0.0)
                 && p.active && SchemaValid(p)
    ensures ValidCreateBody(body) && Guard(callerStore).None?
              && !NameTaken(products, callerStore.value.id, body.name.value) && |body.name.value| >= 3 ==>
              r.outcome.Ok?
  {
    if callerStore.None? then Reply(products, Fail(UserLacksStore))
    else if !ValidCreateBody(body) then Reply(products, Fail(ValidationFailed))
    else if !callerStore.value.enabled then Reply(products, Fail(StoreUnauthorized))
    else
      var store := callerStore.value;
      var picked := Pick(body, Fillable).(store := Some(store.id));
      if Any(products, (p: Product) => Live(p, store.id) && p.name == picked.name.value) then
        Reply(products, Fail(ProductExists))
      else
        var p := New(newId, picked, picked.name.value, picked.price.value, store.id, picked.category.value);
        if !SchemaValid(p) then Reply(products, Fail(ValidationFailed))
        else Reply(products + [p], Ok)
  }

  function FirstLive(products: seq<Product>, id: Id, store: Id): Option<nat> {
    FirstIndex(products, (p: Product) => p.id == id && Live(p, store))
  }

  /** The validators on an update body, each field only when sent: the
      product-name pattern and the price and discount bounds. */
  predicate ValidUpdateBody(b: ProductBody) {
    && (b.name.Some? ==> Regex.ProductName(b.name.value))
    && (b.price.Some? ==> ValidPrice(b.price.value))
    && (b.discount.Some? ==> ValidDiscount(b.discount.value))
  }

  /** PUT /products/:id. A caller without a store is refused first, then an
      invalid body, then a store not yet approved. A requested name held by
      any live product of the store is refused, the product itself included;
      the schema refuses a name shorter than three characters. Only the
      caller's first live product with that id changes, to the patch of the
      updatable fields, so its store and flags stay; the answer is a failure
      when nothing was modified. */
  function Update(products: seq<Product>, callerStore: Option<StoreModel.Store>, id: Id, body: ProductBody): (r: Reply)
    ensures r.outcome.Fail? ==> r.products == products
    ensures |r.products| == |products|
    ensures callerStore.None? ==> r == Reply(products, Fail(UserLacksStore))
    ensures callerStore.Some? && !ValidUpdateBody(body) ==> r == Reply(products, Fail(ValidationFailed))
    ensures ValidUpdateBody(body) && Guard(callerStore).Some? ==> r == Reply(products, Fail(Guard(callerStore).value))
    ensures ValidUpdateBody(body) && Guard(callerStore).None? && body.name.Some?
              && NameTaken(products, callerStore.value.id, body.name.value) ==>
              r.outcome == Fail(ProductExists)
    ensures ValidUpdateBody(body) && Guard(callerStore).None?
              && !(body.name.Some? && NameTaken(products, callerStore.value.id, body.name.value))
              && PatchValid(Pick(body, Updatable)) ==>
              match FirstLive(products, id, callerStore.value.id)
              case None => r == Reply(products, Fail(ProductUpdateFailed))
              case Some(i) =>
                r == if Patch(products[i], Pick(body, Updatable)) == products[i] then Reply(products, Fail(ProductUpdateFailed))
                     else Reply(products[i := Patch(products[i], Pick(body, Updatable))], Ok)
    ensures r.outcome.Ok? ==>
              && ValidUpdateBody(body) && Guard(callerStore).None?
              && FirstLive(products, id, callerStore.value.id).Some?
              && var i := FirstLive(products, id, callerStore.value.id).value;
                 && r.products == products[i := Patch(products[i], Pick(body, Updatable))]
                 && r.products[i] != products[i]
                 && r.products[i].store == products[i].store
                 && r.products[i].id == id && Visible(r.products[i])
  {
    if callerStore.None? then Reply(products, Fail(UserLacksStore))
    else if !ValidUpdateBody(body) then Reply(products, Fail(ValidationFailed))
    else if !callerStore.value.enabled then Reply(products, Fail(StoreUnauthorized))
    else
      var store := callerStore.value;
      var picked := Pick(body, Updatable);
      if picked.name.Some? && Any(products, (p: Product) => Live(p, store.id) && p.name == picked.name.value) then
        Reply(products, Fail(ProductExists))
      else if !PatchValid(picked) then Reply(products, Fail(ValidationFailed))
      else
        var u := UpdateOne(products, (p: Product) => p.id == id && Live(p, store.id), (p: Product) => Patch(p, picked));
        if !u.modified then Reply(products, Fail(ProductUpdateFailed)) else Reply(u.records, Ok)
  }

  /** DELETE /products/:id. Refused without an approved store; otherwise only
      the caller's live product with that id, and only its `active` flag. */
  function Delete(products: seq<Product>, callerStore: Option<StoreModel.Store>, id: Id): (r: Reply)
    ensures Guard(callerStore).Some? ==> r == Reply(products, Fail(Guard(callerStore).value))
    ensures Guard(callerStore).None? && FirstLive(products, id, callerStore.value.id).None? ==>
              r == Reply(products, Fail(ProductNotFound))
    ensures Guard(callerStore).None? && FirstLive(products, id, callerStore.value.id).Some? ==>
              var i := FirstLive(products, id, callerStore.value.id).value;
              r == Reply(products[i := products[i].(active := false)], Ok)
  {
    match Guard(callerStore)
    case Some(reason) => Reply(products, Fail(reason))
    case None =>
      var store := callerStore.value;
      match FindOne(products, (p: Product) => p.id == id && Live(p, store.id))
      case None => Reply(products, Fail(ProductNotFound))
      case Some(found) =>
        var u := UpdateOne(products, (p: Product) => p.id == id && Live(p, store.id), StoreModel.Deactivate);
        if !u.modified then Reply(products, Fail(ProductAlreadyDisabled)) else Reply(u.records, Ok)
  }

  /** A deleted product drops out of the public listing and lookup. */
  lemma DeletedProductHidden(products: seq<Product>, store: StoreModel.Store, id: Id)
    requires UniqueBy(products, ProductId)
    requires Delete(products, Some(store), id).outcome.Ok?
    ensures Lookup(Delete(products, Some(store), id).products, id).None?
  {
  }

  function ProductId(p: Product): Id { p.id }
}

=== FILE: regex.dfy ===
/** The input-format patterns (api/utils/regex.js), as character-class
    predicates. Each pattern is anchored at both ends. */
module Regex {

  predicate Digit(c: char) { '0' <= c <= '9' }

  predicate AsciiLetter(c: char) { 'a' <= c <= 'z' || 'A' <= c <= 'Z' }

  /** ñ Ñ and the acute vowels, lower and upper case. */
  predicate Spanish(c: char) {
    c in {'ñ', 'Ñ', 'á', 'é', 'í', 'ó', 'ú', 'Á', 'É', 'Í', 'Ó', 'Ú'}
  }

  /** `[a-zA-Z0-9_.-]` */
  predicate UsernameChar(c: char) {
    AsciiLetter(c) || Digit(c) || c == '_' || c == '.' || c == '-'
  }

  /** `[a-zA-ZñÑáéíóúÁÉÍÓÚ\' ]` */
  predicate NameChar(c: char) {
    AsciiLetter(c) || Spanish(c) || c == '\'' || c == ' '
  }

  /** `[$0-9a-zA-ZñÑáéíóúÁÉÍÓÚüÜ\' ]` */
  predicate StoreNameChar(c: char) {
    c == '$' || Digit(c) || AsciiLetter(c) || Spanish(c) || c == 'ü' || c == 'Ü' || c == '\'' || c == ' '
  }

  /** `[a-zA-Z0-9ñÑáéíóúÁÉÍÓÚ\' -]` */
  predicate ProductNameChar(c: char) {
    AsciiLetter(c) || Digit(c) || Spanish(c) || c == '\'' || c == ' ' || c == '-'
  }

  /** `^[class]+$`: at least one character, every one in the class. */
  predicate Plus(s: string, inClass: char -> bool) {
    |s| > 0 && forall i :: 0 <= i < |s| ==> inClass(s[i])
  }

  predicate Username(s: string) { Plus(s, UsernameChar) }
  predicate Name(s: string) { Plus(s, NameChar) }
  predicate StoreName(s: string) { Plus(s, StoreNameChar) }
  predicate ProductName(s: string) { Plus(s, ProductNameChar) }

  /** `[-|‐]`: hyphen-minus, a literal vertical bar, or the Unicode hyphen. */
  predicate RutSeparator(c: char) { c == '-' || c == '|' || c == '\U{2010}' }

  /** `[0-9kK]` */
  predicate RutCheck(c: char) { Digit(c) || c == 'k' || c == 'K' }

  /** `^[0-9]+[-|‐]{1}[0-9kK]{1}$`: one or more digits, one separator, one
      check character. Only the shape is checked; the check character is not
      computed from the digits. */
  predicate Rut(s: string) {
    && |s| >= 3
    && (forall i :: 0 <= i < |s| - 2 ==> Digit(s[i]))
    && RutSeparator(s[|s| - 2])
    && RutCheck(s[|s| - 1])
  }

  /** A matcher for `^[class]+$`, scanning left to right. */
  method MatchPlus(s: string, inClass: char -> bool) returns (ok: bool)
    ensures ok <==> Plus(s, inClass)
  {
    if |s| == 0 {
      return false;
    }
    var i := 0;
    while i < |s|
      invariant 0 <= i <= |s|
      invariant forall j :: 0 <= j < i ==> inClass(s[j])
    {
      if !inClass(s[i]) {
        return false;
      }
      i := i + 1;
    }
    return true;
  }

  /** A matcher for the RUT pattern, run as the pattern's automaton: digits,
      then exactly one separator, then exactly one check character. */
  method MatchRut(s: string) returns (ok: bool)
    ensures ok <==> Rut(s)
  {
    var i := 0;
    while i < |s| && Digit(s[i])
      invariant 0 <= i <= |s|
      invariant forall j :: 0 <= j < i ==> Digit(s[j])
    {
      i := i + 1;
    }
    // s[..i] is the longest run of leading digits
    // a RUT's digit run stops exactly at its separator
    assert Rut(s) ==> i == |s| - 2;
    ok := i >= 1 && i + 2 == |s| && RutSeparator(s[i]) && RutCheck(s[i + 1]);
  }

  /** No pattern accepts the empty string. */
  lemma NoneAcceptEmpty()
    ensures !Username("") && !Name("") && !StoreName("") && !ProductName("") && !Rut("")
  {
  }

  /** Personal names never contain a digit. */
  lemma NamesHaveNoDigits(s: string, i: int)
    requires Name(s) && 0 <= i < |s|
    ensures !Digit(s[i])
  {
  }

  /** Every personal name is also a valid store name and a valid product name. */
  lemma NamesAreStoreAndProductNames(s: string)
    requires Name(s)
    ensures StoreName(s) && ProductName(s)
  {
  }

  /** The store-name class adds exactly `$`, the digits, ü and Ü to the
      name class, and the product-name class adds exactly `-` to what the
      two share; the two strings are examples. */
  lemma StoreNamesWiderThanNames()
    ensures forall c :: StoreNameChar(c) && !NameChar(c) <==> c == '$' || Digit(c) || c == 'ü' || c == 'Ü'
    ensures forall c :: ProductNameChar(c) && !StoreNameChar(c) <==> c == '-'
    ensures StoreName("$1 ü") && !Name("$1 ü")
    ensures ProductName("a-1") && !StoreName("a-1")
  {
    assert !NameChar("$1 ü"[0]);
    assert !StoreNameChar("a-1"[1]);
  }

  /** Any non-empty run of digits followed by any separator and any check
      character is a RUT, and nothing else is: the check character is never
      computed. */
  lemma RutShape(digits: string, sep: char, check: char)
    requires |digits| > 0 && forall i :: 0 <= i < |digits| ==> Digit(digits[i])
    ensures Rut(digits + [sep, check]) <==> RutSeparator(sep) && RutCheck(check)
  {
  }

  /** The bar inside the bracket is a literal: `12345678|9` is accepted, and so
      is any check character for the same digits. */
  lemma RutExamples()
    ensures Rut("12345678|9") && Rut("12345678-k") && Rut("12345678-5")
    ensures !Rut("12345678-") && !Rut("-5") && !Rut("1234.567-8") && !Rut("12345678--5")
  {
    assert !Digit("1234.567-8"[4]);
    assert !RutSeparator("12345678-"[7]);
    assert !Digit("12345678--5"[8]);
  }
}

=== FILE: store_model.dfy ===
/** The Store document and its update hook (api/models/Store.model.js). */
module StoreModel {
  import opened Collection
  import opened Messages
  import opened Faults
  import ProductModel
  import CouponModel

  datatype Store = Store(
    id: Id,
    name: string,
    description: Option<string>,
    user: Id,
    imageUrl: Option<string>,
    rut: string,
    activity: string,
    enabled: bool,
    active: bool)

  /** The body a client may send. */
  datatype StoreBody = StoreBody(
    name: Option<string>,
    description: Option<string>,
    imageUrl: Option<string>,
    rut: Option<string>,
    activity: Option<string>,
    user: Option<Id>,
    enabled: Option<bool>,
    active: Option<bool>)

  datatype Field = Name | Description | ImageUrl | Rut | Activity | User | Enabled | Active

  const Fillable: set<Field> := {Name, Description, ImageUrl, Rut, Activity}
  const Updatable: set<Field> := {Name, Description, ImageUrl, Activity, Rut}

  function Keep<T>(f: Field, fields: set<Field>, v: Option<T>): Option<T> {
    if f in fields then v else None
  }

  /** `_.pick(body, fields)`. */
  function Pick(b: StoreBody, fields: set<Field>): (r: StoreBody)
    ensures User !in fields ==> r.user.None?
    ensures Enabled !in fields ==> r.enabled.None?
    ensures Active !in fields ==> r.active.None?
    ensures Name in fields && Rut in fields ==> r.name == b.name && r.rut == b.rut
  {
    StoreBody(
      Keep(Name, fields, b.name), Keep(Description, fields, b.description),
      Keep(ImageUrl, fields, b.imageUrl), Keep(Rut, fields, b.rut),
      Keep(Activity, fields, b.activity), Keep(User, fields, b.user),
      Keep(Enabled, fields, b.enabled), Keep(Active, fields, b.active))
  }

  /** A new store awaits approval: `enabled` false, `active` true. */
  function New(id: Id, name: string, rut: string, activity: string, b: StoreBody, user: Id): (s: Store)
    ensures s.id == id && s.user == user && s.name == name && s.rut == rut
    ensures !s.enabled && s.active
  {
    Store(id, name, b.description, user, b.imageUrl, rut, activity, false, true)
  }

  /** Write every field present in the body. */
  function Patch(s: Store, b: StoreBody): (r: Store)
    ensures r.id == s.id
    ensures b.user.None? ==> r.user == s.user
    ensures b.enabled.None? && b.active.None? ==> r.enabled == s.enabled && r.active == s.active
    ensures Written(b.name, s.name, r.name) && Written(b.rut, s.rut, r.rut)
    ensures Written(b.activity, s.activity, r.activity) && Written(b.user, s.user, r.user)
    ensures WrittenOpt(b.description, s.description, r.description)
    ensures WrittenOpt(b.imageUrl, s.imageUrl, r.imageUrl)
  {
    Store(s.id, b.name.GetOr(s.name), Either(b.description, s.description), b.user.GetOr(s.user),
          Either(b.imageUrl, s.imageUrl), b.rut.GetOr(s.rut), b.activity.GetOr(s.activity),
          b.enabled.GetOr(s.enabled), b.active.GetOr(s.active))
  }

  /** An update through the updatable fields keeps the owner and both flags. */
  lemma UpdatableKeepsOwnerAndFlags(s: Store, b: StoreBody)
    ensures Patch(s, Pick(b, Updatable)).user == s.user
    ensures Patch(s, Pick(b, Updatable)).enabled == s.enabled
    ensures Patch(s, Pick(b, Updatable)).active == s.active
  {
  }

  /** The products and coupons collections after a cascade, and how it ended. */
  datatype Cascaded = Cascaded(products: seq<ProductModel.Product>, coupons: seq<CouponModel.Coupon>, outcome: Outcome)

  function Deactivate(p: ProductModel.Product): ProductModel.Product { p.(active := false) }
  function DeactivateCoupon(c: CouponModel.Coupon): CouponModel.Coupon { c.(active := false) }

  /** Soft-delete every product of the store, then every coupon of the store.
      The coupon write is issued only once the product write succeeded; a
      failed write ends the cascade with an error and nothing after it runs. */
  function DeactivateDependents(store: Id, products: seq<ProductModel.Product>, coupons: seq<CouponModel.Coupon>, faults: Faults): (r: Cascaded)
    ensures |r.products| == |products| && |r.coupons| == |coupons|
    ensures r.outcome.Ok? <==> !faults.productWrite && !faults.couponWrite
    ensures faults.productWrite ==> r.products == products && r.coupons == coupons
    ensures faults.couponWrite ==> r.coupons == coupons
    ensures !faults.productWrite ==>
              forall i :: 0 <= i < |products| ==>
                r.products[i] == (if products[i].store == store then products[i].(active := false) else products[i])
    ensures !faults.productWrite && !faults.couponWrite ==>
              forall i :: 0 <= i < |coupons| ==>
                r.coupons[i] == (if coupons[i].store == store then coupons[i].(active := false) else coupons[i])
  {
    if faults.productWrite then Cascaded(products, coupons, Fail(StorageError))
    else
      var ps := UpdateMany(products, (p: ProductModel.Product) => p.store == store, Deactivate);
      if faults.couponWrite then Cascaded(ps, coupons, Fail(StorageError))
      else Cascaded(ps, UpdateMany(coupons, (c: CouponModel.Coupon) => c.store == store, DeactivateCoupon), Ok)
  }

  /** The `post('update')` hook: a store left not enabled takes its products and
      coupons down with it; an enabled store changes nothing. */
  function OnUpdate(doc: Store, products: seq<ProductModel.Product>, coupons: seq<CouponModel.Coupon>, faults: Faults): (r: Cascaded)
    ensures doc.enabled ==> r == Cascaded(products, coupons, Ok)
    ensures !doc.enabled ==> r == DeactivateDependents(doc.id, products, coupons, faults)
  {
    if !doc.enabled then DeactivateDependents(doc.id, products, coupons, faults)
    else Cascaded(products, coupons, Ok)
  }

  /** The cascade writes `active` only: every product keeps its `enabled` flag and
      every other field but `active`, and products of other stores are untouched. */
  lemma CascadeTouchesOnlyActiveOfThatStore(store: Id, products: seq<ProductModel.Product>, coupons: seq<CouponModel.Coupon>, faults: Faults)
    ensures var r := DeactivateDependents(store, products, coupons, faults);
            && (forall i :: 0 <= i < |products| ==>
                  r.products[i] == products[i].(active := r.products[i].active))
            && (forall i :: 0 <= i < |products| && products[i].store != store ==> r.products[i] == products[i])
            && (forall i :: 0 <= i < |coupons| ==>
                  r.coupons[i] == coupons[i].(active := r.coupons[i].active))
            && (forall i :: 0 <= i < |coupons| && coupons[i].store != store ==> r.coupons[i] == coupons[i])
  {
  }

  /** Running the cascade twice leaves the same collections as running it once. */
  lemma CascadeIdempotent(store: Id, products: seq<ProductModel.Product>, coupons: seq<CouponModel.Coupon>)
    ensures var r := DeactivateDependents(store, products, coupons, NoFaults);
            DeactivateDependents(store, r.products, r.coupons, NoFaults) == r
  {
  }
}

=== FILE: stores_route.dfy ===
/** The store routes (api/routes/stores.route.js): one store per user,
    name and rut uniqueness, and the soft delete followed by the cascade. */
module StoresRoute {
  import opened Collection
  import opened Messages
  import opened Faults
  import opened StoreModel
  import ProductModel
  import CouponModel
  import Constants
  import Regex

  datatype Reply = Reply(stores: seq<Store>, outcome: Outcome)

  predicate NameLength(s: string) {
    Constants.NamesMinLength <= |s| <= Constants.NamesMaxLength
  }

  /** What the validators demand of a create body. */
  predicate ValidCreateBody(b: StoreBody) {
    && b.name.Some? && NameLength(b.name.value) && Regex.StoreName(b.name.value)
    && (b.description.Some? ==> NameLength(b.description.value))
    && b.rut.Some? && Regex.Rut(b.rut.value)
    && b.activity.Some? && NameLength(b.activity.value)
  }

  /** What the validators demand of an update body: each field only when sent. */
  predicate ValidUpdateBody(b: StoreBody) {
    && (b.name.Some? ==> NameLength(b.name.value) && Regex.StoreName(b.name.value))
    && (b.description.Some? ==> NameLength(b.description.value))
    && (b.rut.Some? ==> Regex.Rut(b.rut.value))
    && (b.activity.Some? ==> NameLength(b.activity.value))
  }

  /** Some store carries the name or the rut. An absent field matches nothing. */
  predicate Clashes(s: Store, name: Option<string>, rut: Option<string>) {
    name == Some(s.name) || rut == Some(s.rut)
  }

  /** POST /stores. A caller who already has an active store is refused
      before anything else; then the body is validated; then any store,
      active or not, with the same name or rut is a clash. The created store
      belongs to the caller and awaits approval. */
  function Create(stores: seq<Store>, caller: Id, callerStore: Option<Store>, body: StoreBody, newId: Id): (r: Reply)
    ensures r.outcome.Fail? ==> r.stores == stores
    ensures callerStore.Some? ==> r.outcome == Fail(StoreUserAlreadyExists)
    ensures callerStore.None? && !ValidCreateBody(body) ==> r.outcome == Fail(ValidationFailed)
    ensures callerStore.None? && ValidCreateBody(body) ==>
              (r.outcome == Fail(StoreExists) <==>
                 exists j :: 0 <= j < |stores| && Clashes(stores[j], body.name, body.rut))
    ensures r.outcome.Ok? ==>
              && callerStore.None?
              && |r.stores| == |stores| + 1 && r.stores[..|stores|] == stores
              && var s := r.stores[|stores|];
                 s.user == caller && s.id == newId && Some(s.name) == body.name && Some(s.rut) == body.rut
                 && !s.enabled && s.active
    ensures callerStore.None? && ValidCreateBody(body)
              && (forall j :: 0 <= j < |stores| ==> !Clashes(stores[j], body.name, body.rut)) ==>
              r.outcome.Ok?
  {
    if callerStore.Some? then Reply(stores, Fail(StoreUserAlreadyExists))
    else if !ValidCreateBody(body) then Reply(stores, Fail(ValidationFailed))
    else
      var picked := Pick(body, Fillable);
      if Any(stores, (s: Store) => Clashes(s, picked.name, picked.rut)) then Reply(stores, Fail(StoreExists))
      else Reply(stores + [New(newId, picked.name.value, picked.rut.value, picked.activity.value, picked, caller)], Ok)
  }

  function FirstActive(stores: seq<Store>, id: Id): Option<nat> {
    FirstIndex(stores, (s: Store) => s.id == id && s.active)
  }

  /** PUT /stores. The caller must have a store; any ACTIVE store holding the
      requested name or rut is a clash, the caller's own included; the
      caller's first active store with its id is patched with the updatable
      fields only, so owner and flags never change, and an unchanged store is
      reported as a failed update. */
  function Update(stores: seq<Store>, callerStore: Option<Store>, body: StoreBody): (r: Reply)
    ensures |r.stores| == |stores|
    ensures r.outcome.Fail? ==> r.stores == stores
    ensures callerStore.None? ==> r.outcome == Fail(UserLacksStore)
    ensures callerStore.Some? && !ValidUpdateBody(body) ==> r.outcome == Fail(ValidationFailed)
    ensures callerStore.Some? && ValidUpdateBody(body)
              && (exists j :: 0 <= j < |stores| && stores[j].active && Clashes(stores[j], body.name, body.rut)) ==>
              r.outcome == Fail(StoreExists)
    ensures callerStore.Some? && ValidUpdateBody(body)
              && (forall j :: 0 <= j < |stores| && stores[j].active ==> !Clashes(stores[j], body.name, body.rut)) ==>
              match FirstActive(stores, callerStore.value.id)
              case None => r == Reply(stores, Fail(StoreUpdateFailed))
              case Some(i) =>
                r == if Patch(stores[i], Pick(body, Updatable)) == stores[i] then Reply(stores, Fail(StoreUpdateFailed))
                     else Reply(stores[i := Patch(stores[i], Pick(body, Updatable))], Ok)
    ensures r.outcome.Ok? ==>
              && callerStore.Some? && ValidUpdateBody(body)
              && (forall j :: 0 <= j < |stores| && stores[j].active ==> !Clashes(stores[j], body.name, body.rut))
              && FirstActive(stores, callerStore.value.id).Some?
              && var i := FirstActive(stores, callerStore.value.id).value;
                 && r.stores == stores[i := Patch(stores[i], Pick(body, Updatable))] && r.stores[i] != stores[i]
                 && r.stores[i].user == stores[i].user && r.stores[i].id == stores[i].id
                 && r.stores[i].enabled == stores[i].enabled && r.stores[i].active
  {
    if callerStore.None? then Reply(stores, Fail(UserLacksStore))
    else if !ValidUpdateBody(body) then Reply(stores, Fail(ValidationFailed))
    else
      var picked := Pick(body, Updatable);
      if Any(stores, (s: Store) => s.active && Clashes(s, picked.name, picked.rut)) then Reply(stores, Fail(StoreExists))
      else
        var id := callerStore.value.id;
        var u := UpdateOne(stores, (s: Store) => s.id == id && s.active, (s: Store) => Patch(s, picked));
        if !u.modified then Reply(stores, Fail(StoreUpdateFailed)) else Reply(u.records, Ok)
  }

  /** Sending back the store's own name is refused: the check does not
      exclude the caller's store. */
  lemma OwnNameIsAClash(stores: seq<Store>, own: Store, body: StoreBody)
    requires own in stores && own.active
    requires ValidUpdateBody(body) && body.name == Some(own.name)
    ensures Update(stores, Some(own), body).outcome == Fail(StoreExists)
  {
  }

  /** All three collections after a delete. */
  datatype Deleted = Deleted(stores: seq<Store>, products: seq<ProductModel.Product>,
                             coupons: seq<CouponModel.Coupon>, outcome: Outcome)

  function Retire(s: Store): Store { s.(active := false) }

  /** DELETE /stores. The caller's store must still be active. Its
      `active=false` is written first; the cascade on its products and
      coupons runs afterwards, and an error there is reported without
      undoing the store's flip. */
  function Delete(stores: seq<Store>, products: seq<ProductModel.Product>, coupons: seq<CouponModel.Coupon>,
                  callerStore: Option<Store>, faults: Faults): (r: Deleted)
    ensures |r.stores| == |stores|
    ensures callerStore.None? ==> r == Deleted(stores, products, coupons, Fail(UserLacksStore))
    ensures callerStore.Some? && faults.lookup ==> r == Deleted(stores, products, coupons, Fail(StorageError))
    ensures callerStore.Some? && !faults.lookup && FirstActive(stores, callerStore.value.id).None? ==>
              r == Deleted(stores, products, coupons, Fail(StoreNotFound))
    ensures callerStore.Some? && !faults.lookup && FirstActive(stores, callerStore.value.id).Some? ==>
              && var i := FirstActive(stores, callerStore.value.id).value;
                 && r.stores == stores[i := Retire(stores[i])]
                 && var c := DeactivateDependents(stores[i].id, products, coupons, faults);
                    r.products == c.products && r.coupons == c.coupons && r.outcome == c.outcome
  {
    if callerStore.None? then Deleted(stores, products, coupons, Fail(UserLacksStore))
    else if faults.lookup then Deleted(stores, products, coupons, Fail(StorageError))
    else
      var id := callerStore.value.id;
      match FindOne(stores, (s: Store) => s.id == id && s.active)
      case None => Deleted(stores, products, coupons, Fail(StoreNotFound))
      case Some(store) =>
        var u := UpdateOne(stores, (s: Store) => s.id == id && s.active, Retire);
        if !u.modified then Deleted(stores, products, coupons, Fail(StoreAlreadyDisabled))
        else
          var c := DeactivateDependents(store.id, products, coupons, faults);
          Deleted(u.records, c.products, c.coupons, c.outcome)
  }

  /** A failed product write still leaves the store inactive, and the error
      is reported. */
  lemma CascadeErrorKeepsStoreRetired(stores: seq<Store>, products: seq<ProductModel.Product>,
                                       coupons: seq<CouponModel.Coupon>, own: Store, faults: Faults)
    requires own in stores && own.active && !faults.lookup && faults.productWrite
    ensures var r := Delete(stores, products, coupons, Some(own), faults);
            && r.outcome == Fail(StorageError)
            && r.products == products && r.coupons == coupons
            && exists j :: 0 <= j < |stores| && stores[j].id == own.id && stores[j].active && !r.stores[j].active
  {
  }

  function StoreId(s: Store): Id { s.id }

  /** Deleting twice: the second call finds no active store and changes
      nothing (store ids are distinct). */
  lemma DeleteTwiceReportsNotFound(stores: seq<Store>, products: seq<ProductModel.Product>,
                                                      coupons: seq<CouponModel.Coupon>, own: Store)
    requires UniqueBy(stores, StoreId)
    ensures var r := Delete(stores, products, coupons, Some(own), NoFaults);
            Delete(r.stores, r.products, r.coupons, Some(own), NoFaults)
              == Deleted(r.stores, r.products, r.coupons, Fail(StoreNotFound))
  {
  }
}

/** DELETE /stores as written (api/routes/stores.route.js:116-137). The store
    model exports no `onDisabled`, so once the store's `active=false` is
    written the call raises an exception; the route answers that error and
    no product or coupon of the store is touched. */
module StoresRouteAsWritten {
  import opened Collection
  import opened Messages
  import opened Faults
  import opened StoreModel
  import ProductModel
  import CouponModel
  import StoresRoute

  function DeleteAsWritten(stores: seq<Store>, products: seq<ProductModel.Product>, coupons: seq<CouponModel.Coupon>,
                           callerStore: Option<Store>, faults: Faults): (r: StoresRoute.Deleted)
    ensures r.outcome.Fail?
    ensures r.products == products && r.coupons == coupons
    ensures callerStore.Some? && !faults.lookup && StoresRoute.FirstActive(stores, callerStore.value.id).Some? ==>
              var i := StoresRoute.FirstActive(stores, callerStore.value.id).value;
              r.stores == stores[i := StoresRoute.Retire(stores[i])] && r.outcome == Fail(RuntimeError)
  {
    if callerStore.None? then StoresRoute.Deleted(stores, products, coupons, Fail(UserLacksStore))
    else if faults.lookup then StoresRoute.Deleted(stores, products, coupons, Fail(StorageError))
    else
      var id := callerStore.value.id;
      match FindOne(stores, (s: Store) => s.id == id && s.active)
      case None => StoresRoute.Deleted(stores, products, coupons, Fail(StoreNotFound))
      case Some(store) =>
        var u := UpdateOne(stores, (s: Store) => s.id == id && s.active, StoresRoute.Retire);
        if !u.modified then StoresRoute.Deleted(stores, products, coupons, Fail(StoreAlreadyDisabled))
        else StoresRoute.Deleted(u.records, products, coupons, Fail(RuntimeError))
  }

  /** The input that shows it: the caller's active store with one active
      product and no faults. As written the store is retired, the answer is
      an error and the product stays active; the cascade the route intends
      succeeds and retires the product too. */
  lemma DeleteRetiresStoreButFails(stores: seq<Store>, products: seq<ProductModel.Product>,
                                   coupons: seq<CouponModel.Coupon>, own: Store, k: nat)
    requires StoresRoute.FirstActive(stores, own.id).Some?
    requires k < |products| && products[k].store == own.id && products[k].active
    ensures var w := DeleteAsWritten(stores, products, coupons, Some(own), NoFaults);
            var fixed := StoresRoute.Delete(stores, products, coupons, Some(own), NoFaults);
            && w.outcome == Fail(RuntimeError) && fixed.outcome == Ok
            && w.stores == fixed.stores
            && w.products[k].active && !fixed.products[k].active
  {
  }
}

=== FILE: tags_route.dfy ===
/** GET /tags (api/routes/tags.route.js): the tags of all active products,
    each once, in order of first appearance. */
module TagsRoute {
  import opened Collection
  import opened Messages
  import ProductModel

  type Product = ProductModel.Product

  // ---------------------------------------------------------------- dedup

  /** `indexOf`: the first position of `x`. Where JavaScript answers -1 for
      an absent `x` this answers |s|; the filter only asks for tags that
      occur, so it never reaches that case. */
  function IndexOf(s: seq<string>, x: string): (r: nat)
    ensures r <= |s|
    ensures r < |s| ==> s[r] == x
    ensures forall j :: 0 <= j < r ==> s[j] != x
    ensures r == |s| <==> x !in s
  {
    if |s| == 0 then 0 else if s[0] == x then 0 else 1 + IndexOf(s[1..], x)
  }

  /** The filter `tags.indexOf(tag) === index` over the first n positions. */
  function Keep(s: seq<string>, n: nat): seq<string>
    requires n <= |s|
  {
    if n == 0 then []
    else Keep(s, n - 1) + (if IndexOf(s, s[n - 1]) == n - 1 then [s[n - 1]] else [])
  }

  /** The route's de-duplication: each element kept at its first position only. */
  function Dedup(s: seq<string>): seq<string> {
    Keep(s, |s|)
  }

  /** Reference de-duplication: scan left to right, append what is not yet seen. */
  function FirstSeen(s: seq<string>): seq<string> {
    if |s| == 0 then []
    else
      var r := FirstSeen(s[..|s| - 1]);
      if s[|s| - 1] in r then r else r + [s[|s| - 1]]
  }

  predicate NoDuplicates(s: seq<string>) {
    forall i, j :: 0 <= i < j < |s| ==> s[i] != s[j]
  }

  /** The reference keeps exactly the elements of its input, each once. */
  lemma {:induction false} FirstSeenProperties(s: seq<string>)
    ensures forall x :: x in FirstSeen(s) <==> x in s
    ensures NoDuplicates(FirstSeen(s))
  {
    if |s| > 0 {
      var s' := s[..|s| - 1];
      FirstSeenProperties(s');
      assert s == s' + [s[|s| - 1]];
    }
  }

  lemma IndexOfIsFirst(s: seq<string>, n: nat)
    requires n < |s|
    ensures IndexOf(s, s[n]) == n <==> s[n] !in s[..n]
  {
  }

  /** The route's filter and the reference agree on every prefix. */
  lemma {:induction false} KeepIsFirstSeen(s: seq<string>, n: nat)
    requires n <= |s|
    ensures Keep(s, n) == FirstSeen(s[..n])
  {
    if n > 0 {
      KeepIsFirstSeen(s, n - 1);
      assert s[..n][..n - 1] == s[..n - 1];
      FirstSeenProperties(s[..n - 1]);
      IndexOfIsFirst(s, n - 1);
    }
  }

  /** The filter by first index equals left-to-right first-seen de-duplication:
      no element twice, nothing lost, nothing added. */
  lemma DedupIsFirstSeen(s: seq<string>)
    ensures Dedup(s) == FirstSeen(s)
    ensures NoDuplicates(Dedup(s))
    ensures forall x :: x in Dedup(s) <==> x in s
  {
    KeepIsFirstSeen(s, |s|);
    assert s[..|s|] == s;
    FirstSeenProperties(s);
  }

  /** The order kept is the order of first appearance. */
  lemma {:induction false} FirstSeenOrder(s: seq<string>)
    ensures forall i, j :: 0 <= i < j < |FirstSeen(s)| ==>
              IndexOf(s, FirstSeen(s)[i]) < IndexOf(s, FirstSeen(s)[j])
  {
    if |s| > 0 {
      var s' := s[..|s| - 1];
      var x := s[|s| - 1];
      FirstSeenOrder(s');
      FirstSeenProperties(s');
      assert s == s' + [x];
      var r := FirstSeen(s);
      var r' := FirstSeen(s');
      forall y | y in s'
        ensures IndexOf(s, y) == IndexOf(s', y)
      {
        IndexOfPrefix(s', x, y);
      }
      forall i, j | 0 <= i < j < |r|
        ensures IndexOf(s, r[i]) < IndexOf(s, r[j])
      {
        assert r[i] in r' && r[i] in s';
        if j < |r'| {
          assert r[j] in s';
        } else {
          assert r[j] == x && x !in s';
          assert IndexOf(s, r[i]) < |s'|;
          IndexOfPrefix(s', x, x);
        }
      }
    }
  }

  lemma {:induction false} IndexOfPrefix(s: seq<string>, x: string, y: string)
    ensures y in s ==> IndexOf(s + [x], y) == IndexOf(s, y)
    ensures y !in s && y == x ==> IndexOf(s + [x], y) == |s|
  {
    if |s| > 0 {
      assert (s + [x])[1..] == s[1..] + [x];
      IndexOfPrefix(s[1..], x, y);
    } else {
      assert s + [x] == [x];
    }
  }

  // ---------------------------------------------------------------- the route

  /** The tags a product contributes: none when it has no tag list. */
  function TagsOf(p: Product): seq<string> {
    p.tags.GetOr([])
  }

  /** The products the query returns: active ones; `enabled` is not consulted. */
  function Considered(products: seq<Product>): seq<Product> {
    Find(products, (p: Product) => p.active)
  }

  /** All tags of the given products, product by product, tag by tag. */
  function Flatten(ps: seq<Product>): seq<string> {
    if |ps| == 0 then [] else Flatten(ps[..|ps| - 1]) + TagsOf(ps[|ps| - 1])
  }

  lemma {:induction false} FlattenContents(ps: seq<Product>, x: string)
    ensures x in Flatten(ps) <==> exists j :: 0 <= j < |ps| && x in TagsOf(ps[j])
  {
    if |ps| > 0 {
      FlattenContents(ps[..|ps| - 1], x);
      if x in Flatten(ps[..|ps| - 1]) {
        var j :| 0 <= j < |ps| - 1 && x in TagsOf(ps[..|ps| - 1][j]);
        assert x in TagsOf(ps[j]);
      }
    }
  }

  datatype Reply = Reply(tags: seq<string>, outcome: Outcome)

  /** GET /tags: the result holds no tag twice, holds every tag of every
      active product and nothing else, and is a success even when empty. */
  function Tags(products: seq<Product>): (r: Reply)
    ensures r.outcome == Ok
    ensures NoDuplicates(r.tags)
    ensures forall x :: x in r.tags <==>
              exists j :: 0 <= j < |products| && products[j].active && x in TagsOf(products[j])
    ensures forall i, j :: 0 <= i < j < |r.tags| ==>
              IndexOf(Flatten(Considered(products)), r.tags[i]) < IndexOf(Flatten(Considered(products)), r.tags[j])
  {
    var flat := Flatten(Considered(products));
    DedupIsFirstSeen(flat);
    FirstSeenOrder(flat);
    forall x
      ensures x in Dedup(flat) <==>
              exists j :: 0 <= j < |products| && products[j].active && x in TagsOf(products[j])
    {
      FlattenContents(Considered(products), x);
    }
    Reply(Dedup(flat), Ok)
  }

  /** The first loop: push every tag of every product, in order. */
  method PushAll(considered: seq<Product>) returns (all: seq<string>)
    ensures all == Flatten(considered)
  {
    all := [];
    var i := 0;
    while i < |considered|
      invariant 0 <= i <= |considered|
      invariant all == Flatten(considered[..i])
    {
      var own := TagsOf(considered[i]);
      var k := 0;
      ghost var before := all;
      while k < |own|
        invariant 0 <= k <= |own|
        invariant all == before + own[..k]
      {
        all := all + [own[k]];
        k := k + 1;
      }
      assert own[..k] == own;
      assert considered[..i + 1][..i] == considered[..i];
      i := i + 1;
    }
    assert considered[..i] == considered;
  }

  /** The second loop: keep a tag only where its first index is. */
  method KeepFirst(all: seq<string>) returns (tags: seq<string>)
    ensures tags == Dedup(all)
  {
    tags := [];
    var n := 0;
    while n < |all|
      invariant 0 <= n <= |all|
      invariant tags == Keep(all, n)
    {
      if IndexOf(all, all[n]) == n {
        tags := tags + [all[n]];
      }
      n := n + 1;
    }
  }

  /** The route's two loops compute the reply's list. */
  method CollectTags(products: seq<Product>) returns (tags: seq<string>)
    ensures tags == Tags(products).tags
  {
    var all := PushAll(Considered(products));
    tags := KeepFirst(all);
  }
}

/** The loop exactly as written calls `forEach` on each product's `tags`,
    whose schema default is null: one active product without tags makes the
    route fail. */
module TagsRouteAsWritten {
  import opened Collection
  import opened Messages
  import ProductModel
  import TagsRoute

  /** The flattening as written: `None` when some product's tag list is null. */
  function FlattenAsWritten(ps: seq<ProductModel.Product>): (r: Option<seq<string>>)
    ensures r.Some? <==> forall j :: 0 <= j < |ps| ==> ps[j].tags.Some?
  {
    if |ps| == 0 then Some([])
    else match (FlattenAsWritten(ps[..|ps| - 1]), ps[|ps| - 1].tags)
      case (Some(prefix), Some(own)) => Some(prefix + own)
      case _ => None
  }

  function TagsAsWritten(products: seq<ProductModel.Product>): TagsRoute.Reply {
    match FlattenAsWritten(TagsRoute.Considered(products))
    case None => TagsRoute.Reply([], Fail(RuntimeError))
    case Some(flat) => TagsRoute.Reply(TagsRoute.Dedup(flat), Ok)
  }

  /** The input that shows it: a single active product created without tags
      fails the route as written, while the corrected route answers an empty
      list. */
  lemma UntaggedProductFailsRoute(p: ProductModel.Product)
    requires p.active && p.tags.None?
    ensures TagsAsWritten([p]).outcome == Fail(RuntimeError)
    ensures TagsRoute.Tags([p]) == TagsRoute.Reply([], Ok)
  {
    assert TagsRoute.Considered([p]) == [p];
    assert [p][..0] == [];
    assert TagsRoute.Flatten([p]) == [];
  }
}

=== FILE: user_model.dfy ===
/** The User document, its JSON view and its store cascades (api/models/User.model.js). */
module UserModel {
  import opened Collection
  import opened Messages
  import ProductModel
  import CouponModel
  import StoreModel

  datatype Role = ClientRole | AdminRole

  const DefaultRole: Role := ClientRole

  function RoleName(r: Role): string {
    match r
    case ClientRole => "CLIENT_ROLE"
    case AdminRole => "ADMIN_ROLE"
  }

  /** The schema's role enum: only the two role names are accepted. */
  function ParseRole(text: string): (r: Option<Role>)
    ensures r.Some? ==> RoleName(r.value) == text
  {
    if text == "CLIENT_ROLE" then Some(ClientRole)
    else if text == "ADMIN_ROLE" then Some(AdminRole)
    else None
  }

  lemma ParseRoleName(r: Role)
    ensures ParseRole(RoleName(r)) == Some(r)
  {
  }

  datatype User = User(
    id: Id,
    username: string,
    fname: string,
    lname: string,
    email: string,
    password: string,
    recoverToken: Option<string>,
    recoverTokenExp: Option<int>,
    role: Role,
    imageUrl: Option<string>,
    active: bool)

  /** The serialized user: every stored field except the password. */
  datatype UserJson = UserJson(
    id: Id,
    username: string,
    fname: string,
    lname: string,
    email: string,
    recoverToken: Option<string>,
    recoverTokenExp: Option<int>,
    role: Role,
    imageUrl: Option<string>,
    active: bool)

  function ToJson(u: User): UserJson {
    UserJson(u.id, u.username, u.fname, u.lname, u.email, u.recoverToken,
             u.recoverTokenExp, u.role, u.imageUrl, u.active)
  }

  /** Two users serialize alike exactly when they differ at most in their password:
      `toJSON` drops the password and keeps every other field. */
  lemma ToJsonDropsOnlyPassword(u: User, v: User)
    ensures ToJson(u) == ToJson(v) <==> v == u.(password := v.password)
  {
  }

  /** A new user is a client and active. */
  function New(id: Id, username: string, fname: string, lname: string, email: string, password: string): (u: User)
    ensures u.role == ClientRole && u.active
    ensures u.username == username && u.password == password
  {
    User(id, username, fname, lname, email, password, None, None, DefaultRole, None, true)
  }

  datatype Field =
    | Username | FName | LName | Password | Email | ImageUrl
    | RecoverToken | RecoverTokenExp | RoleField | Active

  const Fillable: set<Field> := {Username, FName, LName, Password, Email, ImageUrl}
  const Updatable: set<Field> := {FName, LName, Email, ImageUrl}

  /** The store-level cascade a user lookup hands the found store to. */
  type StoreCascade = (Id, seq<ProductModel.Product>, seq<CouponModel.Coupon>) -> StoreModel.Cascaded

  /** `onDisabled`: find the user's active store; with none nothing happens,
      otherwise the cascade runs on that store alone. A failed lookup or a
      failed cascade is passed on to the caller. */
  function OnDisabled(user: Id, stores: seq<StoreModel.Store>, products: seq<ProductModel.Product>,
                      coupons: seq<CouponModel.Coupon>, lookupFails: bool, cascade: StoreCascade): (r: StoreModel.Cascaded)
    ensures lookupFails ==> r == StoreModel.Cascaded(products, coupons, Fail(StorageError))
    ensures !lookupFails && (forall j :: 0 <= j < |stores| ==> !(stores[j].user == user && stores[j].active)) ==>
              r == StoreModel.Cascaded(products, coupons, Ok)
    ensures !lookupFails && Any(stores, (s: StoreModel.Store) => s.user == user && s.active) ==>
              exists j :: 0 <= j < |stores| && stores[j].user == user && stores[j].active &&
                          r == cascade(stores[j].id, products, coupons)
  {
    if lookupFails then StoreModel.Cascaded(products, coupons, Fail(StorageError))
    else match FindOne(stores, (s: StoreModel.Store) => s.user == user && s.active)
      case None => StoreModel.Cascaded(products, coupons, Ok)
      case Some(s) => cascade(s.id, products, coupons)
  }

  /** `onEnabled`: the same with the user's store whose `active` is false. */
  function OnEnabled(user: Id, stores: seq<StoreModel.Store>, products: seq<ProductModel.Product>,
                     coupons: seq<CouponModel.Coupon>, lookupFails: bool, cascade: StoreCascade): (r: StoreModel.Cascaded)
    ensures lookupFails ==> r == StoreModel.Cascaded(products, coupons, Fail(StorageError))
    ensures !lookupFails && (forall j :: 0 <= j < |stores| ==> !(stores[j].user == user && !stores[j].active)) ==>
              r == StoreModel.Cascaded(products, coupons, Ok)
    ensures !lookupFails && Any(stores, (s: StoreModel.Store) => s.user == user && !s.active) ==>
              exists j :: 0 <= j < |stores| && stores[j].user == user && !stores[j].active &&
                          r == cascade(stores[j].id, products, coupons)
  {
    if lookupFails then StoreModel.Cascaded(products, coupons, Fail(StorageError))
    else match FindOne(stores, (s: StoreModel.Store) => s.user == user && !s.active)
      case None => StoreModel.Cascaded(products, coupons, Ok)
      case Some(s) => cascade(s.id, products, coupons)
  }
}
